=== FILE: README.md ===
# Autosend Mail: subscriber lifecycle and scheduling, in Dafny

This project models the core of the WordPress plugin *Autosend Mail*. The
plugin keeps a double opt-in mailing list in one table, `autosend_mail_recipients`,
and sends a broadcast to it on a schedule. With the WordPress and MySQL calls
taken out, that core is a small state machine over one table:

- **Sign-up** (`wpam_add_address`, `sendConfirmation`). The posted address is
  trimmed. If a confirmed row already has that address, the request is refused
  with "Email already exists". Otherwise a 16-character token (`ruid`) is drawn
  from a 62-symbol alphabet, a pending row is inserted, and one confirmation mail
  is sent. Its link's query string holds the token and the address, spliced in
  without url-encoding. The shortcode then returns the order form and discards
  `sendConfirmation`'s own notice.
- **Confirm** (`wpam_confirm_address`). The pair arrives through `$_GET`. Every
  row matching the (token, address) pair gets `confirmed = '1'`.
- **Sweep** (`delete_unconfirmed`, twice daily). Every pending row more than
  43200 seconds old is deleted by id.
- **Dispatch** (`send_mail`, hourly). Every confirmed row gets one mail: the
  template followed by a removal link for that row's pair.
- **Remove** (`wpam_remove_address`). Every row matching the pair is deleted,
  whether it is pending or confirmed.
- **Scheduling.** `cronstarter_activation` and `cron_delete_unconfirmed`
  register their hook only when it is absent. `cron_add_minute` adds an
  `everyminute` schedule. `Autosend_Mail_Deactivator::deactivate` removes both hooks.

The model is functional. A `Table` is the rows in table order plus the
auto-increment counter. Each request is a pure function from a table to the
next table, the mails it sent, and the page it returns. The clock (`now`), the
sixteen `rand()` results, whether the insert succeeds, and the template text are
all arguments. Following a link is modelled as a browser and PHP read it,
in module `Query`:
- the link ends at the attribute's closing quote;
- the browser's URL parser (the WHATWG URL Standard, section 4.4) strips
  trailing C0 controls and spaces, removes every tab, LF and CR, and drops the
  fragment;
- PHP splits the query at `&` and url-decodes each name and value;
- the last value of a repeated name wins.

WordPress then slashes every `$_GET` and `$_POST` value as PHP's
`addslashes` does (`Query.AddSlashes`): a backslash before `'`, `"` and `\`,
and NUL written as `\0`. The posted address a sign-up receives is that slashed
value. The WordPress cron store is a list of events, and scheduling
appends an event to it. With a list, the plugin's check-then-register is what
keeps a hook from being registered twice, and the model can show that.

`Store.Valid` is the table invariant every operation preserves:

- ids are at least 1 and below the counter;
- no two rows share an id;
- every `ruid` is a generated token.

Each operation's contract guards its lookup results with this invariant. The
reason is that the source tests `get_var(...) > 0`, which means "a matching row
exists" only because auto-increment ids start at 1 (`Store.Found`).

Modules: `Options`, `Seqs` (order-preserving `Filter`), `Text` (PHP `trim`),
`Tokens`, `Query` (`$_GET` from a link), `Sql` (MySQL string literals), `Store`, `Mails`, `Subscription`,
`Sweeper`, `Dispatcher`, `Scheduler`, `Lifecycle` (properties that span several
operations).

Behaviours of the code that its own comments and messages do not suggest, each
shown in the model:

- The sign-up check is commented "Check if email address already in table"
  (class-autosend-mail.php:263), but its query only looks at confirmed rows
  (:264). An address with only pending rows can sign up again, and each new
  row gets its own token. `Lifecycle.TwoConfirmedRows` shows two sign-ups,
  each confirmed through its own token, ending with two confirmed rows for
  one address. So the code does not keep `Lifecycle.OneConfirmedPerEmail`.
- `sendConfirmation` builds an "Order failed" notice (:322) and a success
  notice (:339), but `wpam_add_address` calls it without using the result (:268)
  and returns the form (:291). A failed insert is invisible to the visitor.
- The removal query (:497, :502) does not look at `confirmed`, so a removal
  link also deletes pending rows with that pair.
- Both links splice the address into the query string without url-encoding
  (:327, :462), and PHP url-decodes `$_GET`. An address with a `+`, such as
  `user+news@example.com`, arrives at the confirm and remove pages as
  `user news@example.com`. Its confirmation link answers "Confirmation link
  may be expired" and leaves the row pending
  (`Lifecycle.PlusAddressNeverConfirms`). Its removal link answers "Not found"
  and the broadcast keeps going to it (`Lifecycle.PlusAddressNotRemoved`). The
  links work for every address with none of `+ % & # " ' \`, and no NUL,
  tab, LF or CR (`Lifecycle.ConfirmationLinkConfirms`,
  `Lifecycle.RemovalLinkRemoves`). The confirmation link also needs an address
  whose last character is not a control character, because the URL parser
  strips those from the end of the link. An address such as
  `o'brien@example.com` arrives slashed a second time, so its links are not
  covered (see "## Left out").

## Model

| member | source | states |
|---|---|---|
| Text.Trim | class-autosend-mail.php:254 | The trimmed address is the slice left after dropping leading and trailing blanks (space, tab, LF, CR, NUL, VT); it neither starts nor ends with a blank. |
| Text.TrimIdempotent | class-autosend-mail.php:254-264 | Trimming an address that is already trimmed changes nothing: the address a row stores, posted again, trims to itself, and the sign-up check at :264 compares it as stored. |
| Tokens.Token | class-autosend-mail.php:308-317 | The token has length 16, every character is in the 62-symbol alphabet `0-9a-zA-Z`, and character k is the symbol at draw k. |
| Tokens.BuildToken | class-autosend-mail.php:311-317 | The appending loop, run 16 times, builds exactly the token of the draws. |
| Tokens.TokenRoundTrip | class-autosend-mail.php:309-315 | The draws can be read back off the token, because every symbol decodes to its position in the alphabet. |
| Tokens.TokenInjective | class-autosend-mail.php:313-317 | Different draws give different tokens. |
| Store.FirstMatchId | class-autosend-mail.php:358 | `get_var` on the (token, address) query yields nothing exactly when no row matches; otherwise it yields the id of a matching row. |
| Store.Found | class-autosend-mail.php:358-360 | The test `get_var(...) > 0` is true only when a row matches the pair, and, when every id is at least 1 as auto-increment makes them, it is true exactly when a row matches. |
| Store.Insert | class-autosend-mail.php:319 | The insert appends one pending row with the counter's id, the given time, address and token, and leaves earlier rows as they were; the new id differs from every existing id, and the table invariant is preserved. |
| Store.SameIdSameRow | class-autosend-mail-activator.php:45-50 | Because `id` is the primary key, two rows of a valid table with the same id are the same row. |
| Store.MarkConfirmed | class-autosend-mail.php:364-380 | The update sets `confirmed` to '1' on exactly the rows matching the pair, changes no other field, and leaves every other row as it was. |
| Store.MarkConfirmedValid | class-autosend-mail.php:364-380 | Confirming keeps the table invariant. |
| Store.MarkConfirmedMatches | class-autosend-mail.php:364-380 | After confirming, the pair still matches a row exactly when it did before, and every row matching it is confirmed. |
| Store.MarkConfirmedIdempotent | class-autosend-mail.php:364-380 | Running the update twice gives the same rows as running it once. |
| Sql.LiteralUndoesSlashes | class-autosend-mail.php:264 | A slashed value spliced between the quotes of a MySQL string literal, as at :264, :358 and :497, reads back as the value before slashing. |
| Store.FilterValid | class-autosend-mail.php:502 | Any delete keeps the table invariant. |
| Query.Before | class-autosend-mail.php:355 | The part of a link the page sees ends just before the first cut character (`#`, or the `"` closing the `href`), and holds none of them. |
| Query.JoinExplode | class-autosend-mail.php:351-355 | Splitting the query at `&` loses nothing: joining the pieces with `&` gives the query back. |
| Query.Lookup | class-autosend-mail.php:354-355 | `$_GET[key]` is absent exactly when no piece has that decoded name; otherwise it is the decoded value of a piece with that name, the last one. |
| Query.DecodeWithoutEscapes | class-autosend-mail.php:355 | Without `%`, `urldecode` keeps the length and changes each `+` to a space and nothing else. |
| Query.DecodeKeeps | class-autosend-mail.php:355 | Without `%`, a value arrives unchanged exactly when it holds no `+`. |
| Query.AddSlashes | class-autosend-mail.php:354-355 | The values the page reads from `$_GET` are WordPress-slashed: never shorter than the decoded value, strictly longer when it holds `'`, `"`, `\` or NUL, and unchanged when it holds none; which value it is is pinned by `Sql.LiteralUndoesSlashes` and `Query.AddSlashesConcat`. |
| Query.AddSlashesConcat | class-autosend-mail.php:354-355 | Slashing works character by character: the slashed concatenation is the concatenation of the slashed parts. |
| Query.SlashesKeep | class-autosend-mail.php:354-355 | A value reaches the page unchanged by slashing exactly when it holds no `'`, `"`, `\` or NUL. |
| Query.NavigateTwo | class-autosend-mail.php:327 | The URL parser leaves a two-parameter query with plain names intact apart from its values: it removes tabs and newlines from both, and strips trailing controls and spaces from the last one. |
| Query.GetTwo | class-autosend-mail.php:354-355 | A query `k1=v1&k2=v2` with distinct plain names and values free of `& # "` gives each name its own value as the URL parser leaves it, url-decoded and then slashed. |
| Mails.ConfirmationMail | class-autosend-mail.php:327-335 | The confirmation mail goes to the address with subject "Confirm email", and the query string in its link is `confirm_ruid=<token>&confirm_email=<address>`, both spliced in unencoded. |
| Mails.ConfirmationLinkRoundTrip | class-autosend-mail.php:327 | The query string of a confirmation link reads back out of the body whole, for any token and any address. |
| Mails.ConfirmationParams | class-autosend-mail.php:327-355 | Opening the confirmation link gives the confirm page the token as written. The address arrives without its tabs and newlines and its trailing controls and spaces, url-decoded and then slashed, for any address with no `& # "`. |
| Mails.BroadcastMail | class-autosend-mail.php:457-474 | The broadcast goes to the row's address with subject "Subject", and the query string of the removal link after the template is `remove_email=<address>&remove_ruid=<token>`. |
| Mails.RemovalLinkRoundTrip | class-autosend-mail.php:462 | The query string of the removal link reads back out of the body, after the template, for any address and token. |
| Mails.RemovalParams | class-autosend-mail.php:462-494 | Opening the removal link gives the remove page the address without its tabs and newlines, url-decoded and then slashed, and the token as written, for any address with no `& # "`. |
| Mails.BroadcastMailInjective | class-autosend-mail.php:462-471 | Two broadcasts on one template with equal-length tokens are equal only when their addresses and tokens are equal. |
| Subscription.SendConfirmation | class-autosend-mail.php:300-341 | If the insert fails, nothing is stored or sent and the notice is "Order failed". Otherwise exactly one pending row is appended with the trimmed address, the drawn token and a fresh id, and exactly one mail is sent to that address; its link's query string is built from that token and address. The table invariant is preserved. |
| Subscription.SignUp | class-autosend-mail.php:248-294 | With no posted address, the form is returned and nothing else happens. If a confirmed row has the trimmed address, "Email already exists" is returned with no row and no mail. Otherwise the form is returned, whatever the insert did, and the table and mails are those of the confirmation step. Earlier pending rows for the address remain. |
| Subscription.Confirm | class-autosend-mail.php:346-397 | With a parameter missing, nothing changes and nothing is shown. Otherwise "Thank you!" is returned exactly when a row matches the pair, and "Confirmation link may be expired" exactly when none does; in that case the table is unchanged. On a match, exactly the matching rows become confirmed and every other row is unchanged. |
| Subscription.Unsubscribe | class-autosend-mail.php:485-513 | With a parameter missing, nothing changes. Otherwise "<email> removed" is returned exactly when a row matches, and "Not found" exactly when none does; in that case the table is unchanged. On a match, the surviving rows are exactly the rows not matching the pair, pending or confirmed, and no match is left. |
| Subscription.NoticeTextInjective | class-autosend-mail.php:273 | The notices "Email already exists" (:273), "Order failed" (:322), the confirmation notice (:339), "Thank you!" (:382), "Confirmation link may be expired" (:387), "<email> removed" (:503) and "Not found" (:506) have pairwise different texts, and a removal notice's text determines the address. |
| Subscription.ConfirmIdempotent | class-autosend-mail.php:364-382 | Confirming the same pair twice gives the same table and notice as confirming it once. |
| Subscription.UnsubscribeTwice | class-autosend-mail.php:497-506 | An identical second removal request returns "Not found" and changes nothing. |
| Sweeper.Sweep | class-autosend-mail.php:411-422 | Confirmed rows stay. Pending rows at most 43200 s old stay, including the boundary. Pending rows more than 43200 s old are gone. No row is added. The number of rows removed equals the number of expired rows. The invariant is preserved. |
| Sweeper.ExpiryBoundary | class-autosend-mail.php:411-420 | A pending row is kept at exactly 43200 s of age and expires one second later; once expired it stays expired; a confirmed row never expires. |
| Sweeper.SweepIdempotent | class-autosend-mail.php:411-422 | Sweeping twice at the same time gives the same table as sweeping once. |
| Sweeper.DoomedIdsAreExpired | class-autosend-mail.php:413-422 | Under the invariant, a row's id is among the ids the loop deletes exactly when the row itself is expired. |
| Sweeper.DeleteUnconfirmed | class-autosend-mail.php:403-428 | With one clock reading for the whole pass, the loop over the pending rows, deleting by id each one more than 43200 s old, ends with exactly the table `Sweeper.Sweep` describes. |
| Dispatcher.SendEach | class-autosend-mail.php:457-476 | One mail per selected row, in order; mail k goes to row k's address and is the template followed by that row's removal link. |
| Dispatcher.SendEachCovers | class-autosend-mail.php:457-474 | Every selected row gets its broadcast, and every broadcast belongs to a selected row. |
| Dispatcher.Dispatch | class-autosend-mail.php:444-478 | There are as many mails as confirmed rows. Mails plus pending rows add up to all rows. Mail k belongs to the k-th confirmed row in table order. Every confirmed row gets its mail, and every mail comes from a confirmed row. |
| Scheduler.NextScheduled | class-autosend-mail.php:533 | `wp_next_scheduled` finds nothing exactly when the hook has no event; otherwise it gives the earliest time among that hook's events. |
| Scheduler.Register | class-autosend-mail.php:532-536 | If the hook already has an event, the cron store is unchanged. If it has none, the hook ends with exactly one event carrying the given recurrence and time. Either way the hook is scheduled afterwards and every other hook's events are unchanged. |
| Scheduler.CronstarterActivation | class-autosend-mail.php:532-536 | If `wpam_scheduled_send` already has an event nothing changes; otherwise it ends with exactly one event, hourly, first due now; other hooks keep their events. |
| Scheduler.CronDeleteUnconfirmed | class-autosend-mail.php:435-439 | If `scheduled_delete_unconfirmed` already has an event nothing changes; otherwise it ends with exactly one event, twice daily, first due now; other hooks keep their events. |
| Scheduler.RegisterIdempotent | class-autosend-mail.php:435-439 | Running the registration again, at any later time, changes nothing. |
| Scheduler.TicksKeepOneEach | class-autosend-mail.php:186-187 | After any non-empty run of page loads, each running both registrations, a store that began with at most one event per plugin hook has exactly one broadcast event and one sweep event. No other hook changes. |
| Scheduler.Deactivate | class-autosend-mail-deactivator.php:32-46 | Afterwards neither `wpam_scheduled_send` nor `scheduled_delete_unconfirmed` is scheduled. Exactly the events of other hooks remain, and each other hook keeps its events in order. |
| Scheduler.DeactivateIdempotent | class-autosend-mail-deactivator.php:43-44 | With neither hook scheduled, deactivation changes nothing. |
| Scheduler.ReactivateAfterDeactivate | class-autosend-mail-deactivator.php:43 | `cronstarter_activation` after deactivation leaves exactly one broadcast event, hourly. |
| Scheduler.CronAddMinute | class-autosend-mail.php:519-526 | The schedules gain the key `everyminute` with a 60-second interval, and every other schedule is kept unchanged. |
| Lifecycle.ConfirmationLinkConfirms | class-autosend-mail.php:327-382 | For an address with none of `+ % & # " ' \`, no NUL, tab, LF or CR, and no control character at its end, opening the link of the confirmation mail returns "Thank you!" and confirms the row the sign-up created; signing up again with that address is then refused with no row and no mail. |
| Lifecycle.PlusAddressNeverConfirms | class-autosend-mail.php:327-387 | For an address with a `+` and none of `% & # "`, and a token not already in use, opening its confirmation link returns "Confirmation link may be expired", leaves the table unchanged and the new row pending. |
| Lifecycle.RemovalLinkRemoves | class-autosend-mail.php:462-503 | For a broadcast to an address with none of `+ % & # " ' \` and no NUL, tab, LF or CR, opening its removal link returns "<email> removed", and the next broadcast no longer contains that mail. |
| Lifecycle.PlusAltered | class-autosend-mail.php:354-355 | Without `%`, an address with a `+` never reaches the page as written, in either link, whatever else it holds. |
| Lifecycle.PlusAddressNotRemoved | class-autosend-mail.php:462-506 | For a confirmed address with a `+` and none of `% & # "`, whose token no other row holds, the broadcast is sent to it, and opening its removal link returns "Not found" and changes nothing. |
| Lifecycle.PendingDuplicates | class-autosend-mail.php:264 | Two sign-ups for an address with no confirmed row leave two pending rows for it, one per token. |
| Lifecycle.ConfirmOne | class-autosend-mail.php:364-380 | Confirming a row's pair confirms that row and leaves rows with other tokens as they were. |
| Lifecycle.ConfirmBoth | class-autosend-mail.php:351-382 | Confirming two rows of one address, each with its own token, leaves two confirmed rows for that address. |
| Lifecycle.TwoConfirmedRows | class-autosend-mail.php:263-268 | Two sign-ups for an address with no confirmed row, each confirmed through its own token, leave two confirmed rows for that address, breaking `OneConfirmedPerEmail`. |

## Left out

- SQL text and MySQL semantics. Lookups are exact equality on row fields, so
  MySQL's case-insensitive and trailing-space-insensitive comparison is not
  modelled. The unescaped values spliced into the queries are not modelled either.
  In particular the sign-up check at class-autosend-mail.php:264 and the
  `get_var` lookups at :358 and :497 read the slashed value as a MySQL string
  literal, which undoes the slashes (`Sql.LiteralUndoesSlashes`). The insert
  at :319, the update at :364 and the delete at :502 bind it as it is. The
  model compares the slashed value exactly everywhere.
- Subscription.SignUp: for an address with `'`, `\`, `"` or NUL, the stored value is
  slashed but the check at :264 compares it un-slashed, so the plugin never
  finds such a confirmed address and signs it up again. The model answers
  "Email already exists".
- `get_var` picks "the first matching row" in table order. SQL without `ORDER BY`
  leaves the order open. Only whether a row exists matters, and the model
  guarantees that through `Store.Found`.
- `mail()` and the header strings. A send is one `Mails.Mail` value
  (recipient, subject, body). At class-autosend-mail.php:333-335 the `From` line
  is never passed, because `mail()` runs inside the header concatenation. The
  call still sends exactly one message, and the model records one.
- `file_get_contents` of the template is the `template` argument. It is read once
  per pass, not once per row.
- `rand()` is the `draws` argument. `Tokens.ValidDraws` states the range
  `rand(0, 61)` guarantees.
- `time()`, `strtotime` and the time zone: `now` and the row timestamps are
  integer seconds. The unused `next monday` and `next friday` dates are dropped.
- Sweeper.DeleteUnconfirmed: reads the clock once per pass. The source calls
  `time()` again for every row, so a pass that straddles a boundary second may
  keep or delete a row differently from the model.
- Subscription.Unsubscribe: states the surviving rows by membership. It does not
  state their positions. The body keeps their order.
- A failed insert is the boolean `insertOk`. Whether MySQL uses up an
  auto-increment value on a failed insert is not modelled; the counter stays as it was.
- Subscription.Confirm: assumes the update at class-autosend-mail.php:364 succeeds.
  The code ignores its result and says "Thank you!" (:382) even when it fails;
  the model does not cover that failure.
- Subscription.Unsubscribe: assumes the delete at :502 succeeds. The code ignores
  its result and says "<email> removed" (:503) even when it fails.
- Sweeper.DeleteUnconfirmed: assumes every per-row delete at :422 succeeds. The
  code ignores each result and moves on to the next row.
- Store.Insert: `id` is a MySQL `INT` (class-autosend-mail-activator.php:45) but a
  `nat` here, so running out of ids is not modelled.
- Query.Get: PHP's rewriting of `.` and space in parameter names to `_`, and
  `[]` array names, are not modelled; the plugin's names use neither. HTML
  character references inside the `href` are not decoded; the fixed link text
  holds none. `%XX` decodes to the character with that code, one byte standing
  for one character, so multi-byte UTF-8 is not modelled. The characters the
  URL parser percent-encodes in a query (space, `<`, `>`, `'`, non-ASCII) are
  decoded back by PHP, so that step is left out. The links are taken as a
  browser's URL parser reads them from the delivered HTML; a mail client or
  transport that rewrites a link is not modelled. WordPress's slashing is
  modelled; `magic_quotes_gpc`, gone since PHP 5.4, is not.
- Lifecycle.ConfirmationLinkConfirms and Lifecycle.RemovalLinkRemoves: hold
  for addresses with none of `+ % & # " ' \` and no NUL, tab, LF or CR, and
  the confirmation link for addresses whose last character is no control
  character. An address with a tab, LF or CR, or one ending in a control
  character, loses it to the URL parser, as `Mails.ConfirmationParams` and
  `Mails.RemovalParams` state; no lemma characterises what the page then does. The `+` case is covered by
  `Lifecycle.PlusAddressNeverConfirms` and `Lifecycle.PlusAddressNotRemoved`.
  For addresses with `%`, `&`, `#` or `"` the links deliver a decoded or cut
  address; `Query.Get` computes it, but no lemma characterises the outcome.
  For addresses with `'`, `\` or NUL the page receives the address slashed a
  second time. The plugin's lookup un-slashes it through SQL, and its update
  and delete do not, so the outcome depends on the MySQL semantics left out above.
- Mails.ConfirmationParams and Mails.RemovalParams: state what reaches
  `$_GET`, the URL parser's removals and slashing included, for every address
  free of `& # "`. What the page then does with a twice-slashed address is the
  SQL gap above.
- Query.GetTwo, Mails.ConfirmationParams and Mails.RemovalParams: a NUL in a
  value is replaced by U+FFFD by the HTML parser before the URL parser sees
  it, and the model keeps the NUL. The plugin never writes a NUL into a link:
  WordPress slashes a posted NUL to the two characters `\0`.
- WordPress cron internals. The store is a list of events, and
  `wp_schedule_event` appends one. The following are not modelled: event
  arguments, merging two events of one hook at the same second, checking the
  recurrence name, and the timer that fires events.
- The `display` label of `everyminute` is stored untranslated (`__()` is i18n).
- The plugin class `Autosend_Mail`, the bootstrap `autosend-mail.php`, the admin
  page, the form markup, `includes/templates/admin.php`,
  `includes/class-autosend-mail-i18n.php` and the hook and shortcode
  registration are plumbing with no logic to model. The notices are modelled by
  their visible text (`Subscription.NoticeText`), without the HTML around them.
- `class-autosend-mail-activator.php` is table creation. It only fixes the row
  type and the auto-increment start used by `Store.Valid`.
- `includes/class-autosend-mail-deactivator.php` has an empty `deactivate`, and
  it is the file the bootstrap loads (autosend-mail.php:53-56). So as deployed,
  deactivation may leave both hooks scheduled. The model follows the
  deactivator at the repository root, which clears both hooks.
- Concurrent requests and overlapping cron runs. Every operation runs alone to completion.

=== FILE: dispatcher.dfy ===
/**
 The hourly job `send_mail`: the broadcast template, followed by a removal
 link, is mailed to every confirmed row. The template file's contents are
 an argument. The job reads the table and never writes it.
 */
module Dispatcher {
  import opened Seqs
  import opened Store
  import opened Mails

  /** One broadcast per row, in the given order. */
  function SendEach(template: string, rows: seq<Row>): (r: seq<Mail>)
    ensures |r| == |rows|
    ensures forall k :: 0 <= k < |rows| ==> r[k] == BroadcastMail(template, rows[k].email, rows[k].ruid)
  {
    if |rows| == 0 then []
    else [BroadcastMail(template, rows[0].email, rows[0].ruid)] + SendEach(template, rows[1..])
  }

  /** Every row gets its mail, and every mail belongs to a row. */
  lemma SendEachCovers(template: string, rows: seq<Row>)
    ensures forall row :: row in rows ==> BroadcastMail(template, row.email, row.ruid) in SendEach(template, rows)
    ensures forall m :: m in SendEach(template, rows) ==>
              exists row :: row in rows && m == BroadcastMail(template, row.email, row.ruid)
  {
    var r := SendEach(template, rows);
    forall row | row in rows ensures BroadcastMail(template, row.email, row.ruid) in r {
      var k :| 0 <= k < |rows| && rows[k] == row;
      assert r[k] == BroadcastMail(template, row.email, row.ruid);
    }
    forall m | m in r ensures exists row :: row in rows && m == BroadcastMail(template, row.email, row.ruid) {
      var k :| 0 <= k < |r| && r[k] == m;
      assert rows[k] in rows;
    }
  }

  /**
   The mails of one dispatch pass: the k-th goes to the k-th confirmed row in
   table order, every confirmed row gets its own, and no mail comes from a
   pending row.
   */
  function Dispatch(t: Table, template: string): (r: seq<Mail>)
    ensures |r| == |ConfirmedRows(t.rows)|
    ensures |r| + |PendingRows(t.rows)| == |t.rows|
    ensures forall k :: 0 <= k < |r| ==>
              && IsConfirmed(ConfirmedRows(t.rows)[k])
              && r[k] == BroadcastMail(template, ConfirmedRows(t.rows)[k].email, ConfirmedRows(t.rows)[k].ruid)
    ensures forall row :: row in t.rows && IsConfirmed(row) ==> BroadcastMail(template, row.email, row.ruid) in r
    ensures forall m :: m in r ==>
              exists row :: row in t.rows && IsConfirmed(row) && m == BroadcastMail(template, row.email, row.ruid)
  {
    var confirmed := ConfirmedRows(t.rows);
    FilterSplit(IsConfirmed, IsPending, t.rows);
    SendEachCovers(template, confirmed);
    assert forall k :: 0 <= k < |confirmed| ==> confirmed[k] in confirmed;
    SendEach(template, confirmed)
  }
}

=== FILE: lifecycle.dfy ===
/**
 Properties that relate several operations. A confirmation link mailed at
 sign-up confirms the row it was sent for, and a removal link mailed by the
 broadcast removes its row, as long as the address travels through the link
 unchanged. The links are written without url-encoding, so an address with
 a `+` arrives decoded and its links find no row. Finally, the code lets
 one address hold two confirmed rows.
 */
module Lifecycle {
  import opened Options
  import opened Text
  import opened Tokens
  import opened Query
  import opened Store
  import opened Mails
  import opened Subscription
  import opened Dispatcher

  /**
   An address that a link carries unchanged: nothing in it splits, ends or is
   decoded in a query value, the URL parser removes nothing from it, and
   nothing in it is slashed on arrival.
   */
  predicate Verbatim(email: string) {
    Free(email, Breaks + {'+', '%'} + Slashed + TabNewline)
  }

  /** An address that, at the end of a link, loses nothing to the URL parser's trailing strip. */
  predicate EndsVisible(email: string) {
    |email| == 0 || !IsControlOrSpace(email[|email| - 1])
  }

  /** Opening the link of a confirmation mail: the confirm page runs on `$_GET` as PHP parses the link. */
  function FollowConfirmation(t: Table, mail: Mail): Option<Reply> {
    match ConfirmationQuery(mail.body)
    case None => None
    case Some(q) => Some(Confirm(t, Get(q, ConfirmRuidKey), Get(q, ConfirmEmailKey)))
  }

  /** Opening the removal link of a broadcast built on `template`. */
  function FollowRemoval(t: Table, template: string, mail: Mail): Option<Reply> {
    match RemovalQuery(template, mail.body)
    case None => None
    case Some(q) => Some(Unsubscribe(t, Get(q, RemoveRuidKey), Get(q, RemoveEmailKey)))
  }

  /** A verbatim address reaches the page exactly as written, and at the end of a link too when it ends visibly. */
  lemma VerbatimDecodes(email: string)
    requires Verbatim(email)
    ensures Free(email, Breaks) && AddSlashes(UrlDecode(InnerValue(email))) == email
    ensures EndsVisible(email) ==> AddSlashes(UrlDecode(FinalValue(email))) == email
  {
    assert Free(email, TabNewline);
    assert Free(email, {'+', '%'});
    DecodePlain(email);
    assert Free(email, Slashed);
    if EndsVisible(email) {
      assert StripTrailing(email) == email;
    }
  }

  /**
   Without `%`, an address with a `+` never reaches the page as written,
   wherever it stands in the link: the URL parser brings in no `%`, decoding
   turns every `+` into a space, and slashing brings in no `+`.
   */
  lemma PlusAltered(email: string)
    requires '%' !in email && '+' in email
    ensures AddSlashes(UrlDecode(InnerValue(email))) != email
    ensures AddSlashes(UrlDecode(FinalValue(email))) != email
  {
    assert Free(email, {'%'});
    ValuesFree(email, {'%'});
    NoPlusArrives(InnerValue(email));
    NoPlusArrives(FinalValue(email));
  }

  /** Without `%`, no `+` is left once a value is decoded and slashed. */
  lemma NoPlusArrives(v: string)
    requires Free(v, {'%'})
    ensures '+' !in AddSlashes(UrlDecode(v))
  {
    DecodeWithoutEscapes(v);
    SlashesFree(UrlDecode(v), {'+'});
  }

  /**
   Following the link of the confirmation mail confirms the row the sign-up
   created, and from then on signing up with the same address is refused
   without any row or mail.
   */
  lemma ConfirmationLinkConfirms(t: Table, post: string, now: int, draws: seq<nat>, later: int, draws2: seq<nat>, ok2: bool)
    requires Valid(t) && ValidDraws(draws) && ValidDraws(draws2)
    requires !HasConfirmed(t.rows, Trim(post)) && Verbatim(Trim(post)) && EndsVisible(Trim(post))
    ensures var signed := SignUp(t, Some(post), now, draws, true);
            && |signed.sent| == 1
            && FollowConfirmation(signed.table, signed.sent[0]).Some?
            && var confirmed := FollowConfirmation(signed.table, signed.sent[0]).value;
               && confirmed.notice == Some(ThankYou)
               && IsConfirmed(confirmed.table.rows[|t.rows|])
               && confirmed.table.rows[|t.rows|].email == Trim(post)
               && SignUp(confirmed.table, Some(post), later, draws2, ok2) == Effect(confirmed.table, [], Shown(EmailExists))
  {
    var email, ruid := Trim(post), Token(draws);
    var signed := SignUp(t, Some(post), now, draws, true);
    VerbatimDecodes(email);
    ConfirmationParams(ruid, email);
    var row := signed.table.rows[|t.rows|];
    assert row in signed.table.rows;
    assert Matches(row, ruid, email);
    var confirmed := Confirm(signed.table, Some(ruid), Some(email));
    assert FollowConfirmation(signed.table, signed.sent[0]) == Some(confirmed);
    assert confirmed.table.rows[|t.rows|] in confirmed.table.rows;
  }

  /**
   An address with a `+` (and no `%`, `&`, `#` or `"`) cannot be confirmed by
   its own link: the page receives the address with the `+` decoded to a
   space, finds no row, answers "Confirmation link may be expired", and the
   new row stays pending. The drawn token is assumed not to be in use already.
   */
  lemma PlusAddressNeverConfirms(t: Table, post: string, now: int, draws: seq<nat>)
    requires Valid(t) && ValidDraws(draws)
    requires !HasConfirmed(t.rows, Trim(post))
    requires Free(Trim(post), Breaks) && '%' !in Trim(post) && '+' in Trim(post)
    requires forall row :: row in t.rows ==> row.ruid != Token(draws)
    ensures var signed := SignUp(t, Some(post), now, draws, true);
            && |signed.sent| == 1
            && IsPending(signed.table.rows[|t.rows|])
            && FollowConfirmation(signed.table, signed.sent[0]) == Some(Reply(signed.table, Some(LinkMayBeExpired)))
  {
    var email, ruid := Trim(post), Token(draws);
    var signed := SignUp(t, Some(post), now, draws, true);
    ConfirmationParams(ruid, email);
    PlusAltered(email);
    var received := AddSlashes(UrlDecode(FinalValue(email)));
    assert forall row :: row in signed.table.rows ==> row in t.rows || row == signed.table.rows[|t.rows|];
    assert !HasMatch(signed.table.rows, ruid, received);
    assert FollowConfirmation(signed.table, signed.sent[0]) == Some(Confirm(signed.table, Some(ruid), Some(received)));
  }

  /**
   Every broadcast to a verbatim address carries a removal link that removes
   its row: following it answers "<email> removed", and the next broadcast
   no longer sends that mail.
   */
  lemma RemovalLinkRemoves(t: Table, template: string, m: Mail)
    requires Valid(t) && m in Dispatch(t, template) && Verbatim(m.to)
    ensures FollowRemoval(t, template, m).Some?
    ensures var removed := FollowRemoval(t, template, m).value;
            && removed.notice == Some(Removed(m.to))
            && m !in Dispatch(removed.table, template)
  {
    var row :| row in t.rows && IsConfirmed(row) && m == BroadcastMail(template, row.email, row.ruid);
    VerbatimDecodes(row.email);
    RemovalParams(row.email, row.ruid);
    var removed := Unsubscribe(t, Some(row.ruid), Some(row.email));
    assert FollowRemoval(t, template, m) == Some(removed);
    assert Matches(row, row.ruid, row.email);
    forall other | other in removed.table.rows && IsConfirmed(other)
      ensures m != BroadcastMail(template, other.email, other.ruid)
    {
      if m == BroadcastMail(template, other.email, other.ruid) {
        BroadcastMailInjective(template, row.email, row.ruid, other.email, other.ruid);
      }
    }
  }

  /**
   A confirmed address with a `+` (and no `%`, `&`, `#` or `"`) cannot leave
   the list through its removal link: the page receives the decoded address,
   answers "Not found" and changes nothing, so the broadcast keeps going to
   it. No other row carries the same token.
   */
  lemma PlusAddressNotRemoved(t: Table, template: string, row: Row)
    requires Valid(t) && row in t.rows && IsConfirmed(row)
    requires Free(row.email, Breaks) && '%' !in row.email && '+' in row.email
    requires forall other :: other in t.rows && other.ruid == row.ruid ==> other == row
    ensures var m := BroadcastMail(template, row.email, row.ruid);
            && m in Dispatch(t, template)
            && FollowRemoval(t, template, m) == Some(Reply(t, Some(NotFound)))
  {
    RemovalParams(row.email, row.ruid);
    PlusAltered(row.email);
    var received := AddSlashes(UrlDecode(InnerValue(row.email)));
    assert !HasMatch(t.rows, row.ruid, received);
    var m := BroadcastMail(template, row.email, row.ruid);
    assert FollowRemoval(t, template, m) == Some(Unsubscribe(t, Some(row.ruid), Some(received)));
  }

  /**
   At most one confirmed row per address: the rule the sign-up check
   (class-autosend-mail.php:263-264) suggests, since it refuses an address
   that already has a confirmed row.
   */
  predicate OneConfirmedPerEmail(rows: seq<Row>) {
    forall i, j :: 0 <= i < j < |rows| && IsConfirmed(rows[i]) && IsConfirmed(rows[j]) ==> rows[i].email != rows[j].email
  }

  /**
   The sign-up check only looks at confirmed rows, so two sign-ups for an
   address with no confirmed row leave two pending rows for it, one per token.
   */
  lemma PendingDuplicates(t: Table, post: string, now: int, d1: seq<nat>, d2: seq<nat>)
    requires Valid(t) && ValidDraws(d1) && ValidDraws(d2)
    requires !HasConfirmed(t.rows, Trim(post))
    ensures var s1 := SignUp(t, Some(post), now, d1, true);
            var s2 := SignUp(s1.table, Some(post), now, d2, true);
            && Valid(s2.table)
            && |s2.table.rows| == |t.rows| + 2
            && |s2.sent| == 1
            && s2.table.rows[|t.rows|] == s1.table.rows[|t.rows|]
            && IsPending(s2.table.rows[|t.rows|]) && IsPending(s2.table.rows[|t.rows| + 1])
            && Matches(s2.table.rows[|t.rows|], Token(d1), Trim(post))
            && Matches(s2.table.rows[|t.rows| + 1], Token(d2), Trim(post))
  {
    var s1 := SignUp(t, Some(post), now, d1, true);
    assert forall row :: row in s1.table.rows ==> row in t.rows || row == s1.table.rows[|t.rows|];
    assert !HasConfirmed(s1.table.rows, Trim(post));
  }

  /** Confirming the pair of row `i` confirms it and leaves the rows with other tokens as they were. */
  lemma ConfirmOne(t: Table, i: nat, ruid: string, email: string)
    requires Valid(t) && i < |t.rows| && Matches(t.rows[i], ruid, email)
    ensures var c := Confirm(t, Some(ruid), Some(email));
            && Valid(c.table)
            && |c.table.rows| == |t.rows|
            && c.table.rows[i] == t.rows[i].(confirmed := ConfirmedFlag)
            && forall k :: 0 <= k < |t.rows| && t.rows[k].ruid != ruid ==> c.table.rows[k] == t.rows[k]
  {
    assert t.rows[i] in t.rows;
  }

  /** Confirming two rows of one address, each with its own pair, leaves two confirmed rows for it. */
  lemma ConfirmBoth(t: Table, i: nat, j: nat, email: string)
    requires Valid(t) && i < j < |t.rows|
    requires t.rows[i].email == email && t.rows[j].email == email && t.rows[i].ruid != t.rows[j].ruid
    ensures var c1 := Confirm(t, Some(t.rows[i].ruid), Some(email));
            var c2 := Confirm(c1.table, Some(t.rows[j].ruid), Some(email));
            && IsConfirmed(c2.table.rows[i]) && IsConfirmed(c2.table.rows[j])
            && c2.table.rows[i].email == email && c2.table.rows[j].email == email
            && !OneConfirmedPerEmail(c2.table.rows)
  {
    var ri, rj := t.rows[i].ruid, t.rows[j].ruid;
    ConfirmOne(t, i, ri, email);
    var t1 := Confirm(t, Some(ri), Some(email)).table;
    ConfirmOne(t1, j, rj, email);
  }

  /**
   Two sign-ups for one address, each confirmed with its own token, give two
   confirmed rows for that address: the sign-up check only looks at confirmed
   rows, so it does not keep `OneConfirmedPerEmail`.
   */
  lemma TwoConfirmedRows(t: Table, post: string, now: int, d1: seq<nat>, d2: seq<nat>)
    requires Valid(t) && ValidDraws(d1) && ValidDraws(d2) && d1 != d2
    requires !HasConfirmed(t.rows, Trim(post))
    ensures var s1 := SignUp(t, Some(post), now, d1, true);
            var s2 := SignUp(s1.table, Some(post), now, d2, true);
            var c1 := Confirm(s2.table, Some(Token(d1)), Some(Trim(post)));
            var c2 := Confirm(c1.table, Some(Token(d2)), Some(Trim(post)));
            !OneConfirmedPerEmail(c2.table.rows)
  {
    var s1 := SignUp(t, Some(post), now, d1, true);
    var s2 := SignUp(s1.table, Some(post), now, d2, true);
    PendingDuplicates(t, post, now, d1, d2);
    TokenInjective(d1, d2);
    ConfirmBoth(s2.table, |t.rows|, |t.rows| + 1, Trim(post));
  }
}

=== FILE: mails.dfy ===
/**
 Outbound mail. A send is recorded as a `Mail` value; the MIME headers and
 the delivery through `mail()` are not modelled. Each body carries a link
 whose query string is written by plain concatenation of a token and an
 address, with no url-encoding; what the handling page receives from that
 query is `Query.Get`.
 */
module Mails {
  import opened Options
  import opened Tokens
  import opened Query

  datatype Mail = Mail(to: string, subject: string, body: string)

  /** The query parameter names of the confirmation link and of the removal link. */
  const ConfirmRuidKey: string := "confirm_ruid"
  const ConfirmEmailKey: string := "confirm_email"
  const RemoveEmailKey: string := "remove_email"
  const RemoveRuidKey: string := "remove_ruid"

  const ConfirmSubject: string := "Confirm email"
  const ConfirmHead: string := "<h3>Confirm email</h3><br><a href=\"[PAGE LINK WHERE wpam_confirm SHORTCODE IS FOUND HERE]/?"
  const ConfirmTail: string := "\">Confirm &raquo;</a>"

  /** The query string of a confirmation link: the token first, then the address, both as they are. */
  function ConfirmQuery(ruid: string, email: string): string {
    ConfirmRuidKey + "=" + ruid + "&" + ConfirmEmailKey + "=" + email
  }

  /** The query string written into the link of a confirmation body. */
  function ConfirmationQuery(body: string): Option<string> {
    if |body| < |ConfirmHead| + |ConfirmTail|
       || body[..|ConfirmHead|] != ConfirmHead
       || body[|body| - |ConfirmTail|..] != ConfirmTail
    then None
    else Some(body[|ConfirmHead|..|body| - |ConfirmTail|])
  }

  /** The confirmation link written for any token and address reads back as its query string. */
  lemma ConfirmationLinkRoundTrip(email: string, ruid: string)
    ensures var body := ConfirmHead + ConfirmQuery(ruid, email) + ConfirmTail;
            ConfirmationQuery(body) == Some(ConfirmQuery(ruid, email))
  {
    var q := ConfirmQuery(ruid, email);
    var body := ConfirmHead + q + ConfirmTail;
    assert body[..|ConfirmHead|] == ConfirmHead;
    assert body[|ConfirmHead|..|body| - |ConfirmTail|] == q;
    assert body[|body| - |ConfirmTail|..] == ConfirmTail;
  }

  /**
   The confirmation message sent at sign-up: addressed to `email`, and its
   body's link holds the query string `confirm_ruid=<ruid>&confirm_email=<email>`.
   */
  function ConfirmationMail(email: string, ruid: string): (m: Mail)
    ensures m.to == email && m.subject == ConfirmSubject
    ensures ConfirmationQuery(m.body) == Some(ConfirmQuery(ruid, email))
  {
    ConfirmationLinkRoundTrip(email, ruid);
    Mail(email, ConfirmSubject, ConfirmHead + ConfirmQuery(ruid, email) + ConfirmTail)
  }

  const BroadcastSubject: string := "Subject"
  const RemoveHead: string := "<br><br><br><a href=\"[LINK WHERE wpam_remove_notification IS FOUND HERE]/?"
  const RemoveTail: string := "\">Click to remove this address from mailing list &raquo;</a>"

  /** The query string of a removal link: the address first, then the token, both as they are. */
  function RemoveQuery(email: string, ruid: string): string {
    RemoveEmailKey + "=" + email + "&" + RemoveRuidKey + "=" + ruid
  }

  /** The query string written into the removal link of a broadcast body built on `template`. */
  function RemovalQuery(template: string, body: string): Option<string> {
    var queryAt := |template| + |RemoveHead|;
    if |body| < queryAt + |RemoveTail|
       || body[..queryAt] != template + RemoveHead
       || body[|body| - |RemoveTail|..] != RemoveTail
    then None
    else Some(body[queryAt..|body| - |RemoveTail|])
  }

  /** The removal link appended to any template reads back as its query string. */
  lemma RemovalLinkRoundTrip(template: string, email: string, ruid: string)
    ensures var body := template + RemoveHead + RemoveQuery(email, ruid) + RemoveTail;
            RemovalQuery(template, body) == Some(RemoveQuery(email, ruid))
  {
    var q := RemoveQuery(email, ruid);
    var body := template + RemoveHead + q + RemoveTail;
    var queryAt := |template| + |RemoveHead|;
    assert body[..queryAt] == template + RemoveHead;
    assert body[queryAt..|body| - |RemoveTail|] == q;
    assert body[|body| - |RemoveTail|..] == RemoveTail;
  }

  /**
   The scheduled message: addressed to `email`, the template followed by a
   removal link whose query string is `remove_email=<email>&remove_ruid=<ruid>`.
   */
  function BroadcastMail(template: string, email: string, ruid: string): (m: Mail)
    ensures m.to == email && m.subject == BroadcastSubject
    ensures RemovalQuery(template, m.body) == Some(RemoveQuery(email, ruid))
  {
    RemovalLinkRoundTrip(template, email, ruid);
    Mail(email, BroadcastSubject, template + RemoveHead + RemoveQuery(email, ruid) + RemoveTail)
  }

  /** Broadcasts built on one template for tokens of one length differ whenever their pairs differ. */
  lemma BroadcastMailInjective(template: string, e1: string, r1: string, e2: string, r2: string)
    requires |r1| == |r2|
    requires BroadcastMail(template, e1, r1) == BroadcastMail(template, e2, r2)
    ensures e1 == e2 && r1 == r2
  {
    var q1 := RemoveQuery(e1, r1);
    var q2 := RemoveQuery(e2, r2);
    assert q1 == q2;
    assert q1[|q1| - |r1|..] == r1;
    assert q2[|q2| - |r2|..] == r2;
  }

  /** A letter or digit does not split, end, escape or get slashed in a query value, and the URL parser keeps it. */
  lemma AlnumPlain(c: char)
    requires IsAlnum(c)
    ensures c !in Breaks + {'+', '%'} + Slashed + TabNewline && !IsControlOrSpace(c)
  {
  }

  /**
   A generated token holds nothing that splits, ends, escapes or gets slashed
   in a query value, and the URL parser leaves it whole wherever it stands.
   */
  lemma TokenPlain(ruid: string)
    requires IsToken(ruid)
    ensures Free(ruid, Breaks + {'+', '%'} + Slashed + TabNewline)
    ensures InnerValue(ruid) == ruid && FinalValue(ruid) == ruid
  {
    forall k | 0 <= k < |ruid|
      ensures ruid[k] !in Breaks + {'+', '%'} + Slashed + TabNewline && !IsControlOrSpace(ruid[k])
    {
      SymbolAlnum(ruid[k]);
      AlnumPlain(ruid[k]);
    }
    assert Free(ruid, TabNewline);
    assert StripTrailing(ruid) == ruid;
  }

  /** The parameter names are plain and distinct. */
  lemma KeysPlain()
    ensures PlainName(ConfirmRuidKey) && PlainName(ConfirmEmailKey) && ConfirmRuidKey != ConfirmEmailKey
    ensures PlainName(RemoveEmailKey) && PlainName(RemoveRuidKey) && RemoveEmailKey != RemoveRuidKey
  {
    assert ConfirmRuidKey[8] != ConfirmEmailKey[8];
    assert RemoveEmailKey[7] != RemoveRuidKey[7];
  }

  /**
   Opening the confirmation link: the page receives the token as written, and
   the address as the URL parser leaves the end of a link, url-decoded and
   then slashed, as long as the address holds no `&`, `#` or `"`.
   */
  lemma ConfirmationParams(ruid: string, email: string)
    requires IsToken(ruid) && Free(email, Breaks)
    ensures Get(ConfirmQuery(ruid, email), ConfirmRuidKey) == Some(ruid)
    ensures Get(ConfirmQuery(ruid, email), ConfirmEmailKey) == Some(AddSlashes(UrlDecode(FinalValue(email))))
  {
    KeysPlain();
    TokenPlain(ruid);
    DecodePlain(ruid);
    assert Free(ruid, Slashed);
    GetTwo(ConfirmRuidKey, ruid, ConfirmEmailKey, email);
  }

  /**
   Opening the removal link: the page receives the address without its tabs
   and newlines, url-decoded and then slashed, and the token as written, as
   long as the address holds no `&`, `#` or `"`.
   */
  lemma RemovalParams(email: string, ruid: string)
    requires IsToken(ruid) && Free(email, Breaks)
    ensures Get(RemoveQuery(email, ruid), RemoveRuidKey) == Some(ruid)
    ensures Get(RemoveQuery(email, ruid), RemoveEmailKey) == Some(AddSlashes(UrlDecode(InnerValue(email))))
  {
    KeysPlain();
    TokenPlain(ruid);
    DecodePlain(ruid);
    assert Free(ruid, Slashed);
    GetTwo(RemoveEmailKey, email, RemoveRuidKey, ruid);
  }
}

=== FILE: options.dfy ===
/** An optional value: a query parameter that may be absent, a lookup that may find nothing. */
module Options {

  datatype Option<T> = None | Some(value: T)
}

=== FILE: query.dfy ===
/**
 How a link's query string reaches the page that handles it. The `href`
 attribute that holds the link ends at the first `"`. The browser's URL
 parser (the WHATWG URL Standard, section 4.4 "URL parsing") strips C0
 controls and spaces from the end, removes every tab and newline, and drops
 everything from the first `#`. PHP then splits what is left at `&`, cuts
 each part at its first `=`, and url-decodes name and value; when a name
 occurs twice the last value wins. WordPress finally slashes each value.
 `Get` is the resulting `$_GET[key]`.
 */
module Query {
  import opened Options

  /** No character of `s` is in `stops`. */
  predicate Free(s: string, stops: set<char>) {
    forall k :: 0 <= k < |s| ==> s[k] !in stops
  }

  lemma FreeConcat(a: string, b: string, stops: set<char>)
    requires Free(a, stops) && Free(b, stops)
    ensures Free(a + b, stops)
  {
    forall k | 0 <= k < |a + b|
      ensures (a + b)[k] !in stops
    {
      if k < |a| { assert (a + b)[k] == a[k]; } else { assert (a + b)[k] == b[k - |a|]; }
    }
  }

  /** `s` up to, not including, its first character in `stops`; all of `s` when there is none. */
  function Before(s: string, stops: set<char>): (r: string)
    ensures |r| <= |s| && r == s[..|r|]
    ensures Free(r, stops)
    ensures |r| < |s| ==> s[|r|] in stops
  {
    if |s| == 0 || s[0] in stops then [] else [s[0]] + Before(s[1..], stops)
  }

  /** A string with no stop character is kept whole. */
  lemma BeforeFree(s: string, stops: set<char>)
    requires Free(s, stops)
    ensures Before(s, stops) == s
  {
  }

  /** A stop character right after a stop-free prefix ends the result there. */
  lemma BeforeStop(a: string, c: char, b: string, stops: set<char>)
    requires Free(a, stops) && c in stops
    ensures Before(a + [c] + b, stops) == a
  {
    var s := a + [c] + b;
    assert s[|a|] == c;
    assert forall k :: 0 <= k < |a| ==> s[k] == a[k];
  }

  /** PHP's `explode` on one character: the pieces between separators, in order. */
  function Explode(s: string, sep: char): (parts: seq<string>)
    ensures |parts| >= 1
    ensures forall i :: 0 <= i < |parts| ==> Free(parts[i], {sep})
    decreases |s|
  {
    var head := Before(s, {sep});
    if |head| == |s| then [s] else [head] + Explode(s[|head| + 1..], sep)
  }

  /** The pieces joined back with the separator. */
  function Join(parts: seq<string>, sep: char): string
    requires |parts| >= 1
  {
    if |parts| == 1 then parts[0] else parts[0] + [sep] + Join(parts[1..], sep)
  }

  /** Splitting loses nothing: joining the pieces gives the string back. */
  lemma {:induction false} JoinExplode(s: string, sep: char)
    ensures Join(Explode(s, sep), sep) == s
    decreases |s|
  {
    var head := Before(s, {sep});
    if |head| < |s| {
      var rest := s[|head| + 1..];
      JoinExplode(rest, sep);
      assert s == head + [sep] + rest;
    }
  }

  /** A piece free of the separator followed by the separator is the first piece. */
  lemma ExplodeStep(a: string, sep: char, b: string)
    requires Free(a, {sep})
    ensures Explode(a + [sep] + b, sep) == [a] + Explode(b, sep)
  {
    var s := a + [sep] + b;
    BeforeStop(a, sep, b, {sep});
    assert s[|a| + 1..] == b;
  }

  /** The value of a hexadecimal digit. */
  function HexValue(c: char): Option<nat> {
    if '0' <= c <= '9' then Some(c as nat - '0' as nat)
    else if 'a' <= c <= 'f' then Some(10 + (c as nat - 'a' as nat))
    else if 'A' <= c <= 'F' then Some(10 + (c as nat - 'A' as nat))
    else None
  }

  /**
   PHP's `urldecode`: `+` becomes a space, `%` followed by two hexadecimal
   digits becomes the character with that code, and anything else stands
   for itself.
   */
  function UrlDecode(s: string): (r: string)
    ensures |r| <= |s|
    decreases |s|
  {
    if |s| == 0 then ""
    else if s[0] == '+' then " " + UrlDecode(s[1..])
    else if s[0] == '%' && |s| >= 3 && HexValue(s[1]).Some? && HexValue(s[2]).Some? then
      [(16 * HexValue(s[1]).value + HexValue(s[2]).value) as char] + UrlDecode(s[3..])
    else [s[0]] + UrlDecode(s[1..])
  }

  /** Without `%`, decoding only turns each `+` into a space. */
  lemma {:induction false} DecodeWithoutEscapes(s: string)
    requires '%' !in s
    ensures |UrlDecode(s)| == |s|
    ensures forall k :: 0 <= k < |s| ==> UrlDecode(s)[k] == (if s[k] == '+' then ' ' else s[k])
    decreases |s|
  {
    if |s| > 0 {
      assert forall c :: c in s[1..] ==> c in s;
      DecodeWithoutEscapes(s[1..]);
    }
  }

  /** Without `%`, a value survives decoding exactly when it holds no `+`. */
  lemma DecodeKeeps(s: string)
    requires '%' !in s
    ensures UrlDecode(s) == s <==> '+' !in s
  {
    DecodeWithoutEscapes(s);
    if '+' in s {
      var k :| 0 <= k < |s| && s[k] == '+';
      assert UrlDecode(s)[k] == ' ';
    }
  }

  /** The decoded name of a `name=value` piece: everything before its first `=`. */
  function PairName(p: string): string {
    UrlDecode(Before(p, {'='}))
  }

  /** The decoded value of a piece: everything after its first `=`, or empty when it has none. */
  function PairValue(p: string): string {
    var name := Before(p, {'='});
    if |name| == |p| then "" else UrlDecode(p[|name| + 1..])
  }

  /** The value of `key` among the pieces: the last piece with that name wins. */
  function Lookup(pairs: seq<string>, key: string): (r: Option<string>)
    ensures r.None? <==> forall i :: 0 <= i < |pairs| ==> PairName(pairs[i]) != key
    ensures r.Some? ==>
              exists i :: 0 <= i < |pairs| && PairName(pairs[i]) == key && r.value == PairValue(pairs[i])
                          && forall j :: i < j < |pairs| ==> PairName(pairs[j]) != key
  {
    if |pairs| == 0 then None
    else
      var last := pairs[|pairs| - 1];
      if PairName(last) == key then Some(PairValue(last))
      else
        var r := Lookup(pairs[..|pairs| - 1], key);
        assert forall i :: 0 <= i < |pairs| - 1 ==> pairs[..|pairs| - 1][i] == pairs[i];
        r
  }

  /** The characters `addslashes` escapes: single and double quote, backslash and NUL. */
  const Slashed: set<char> := {'\'', '"', '\\', '\0'}

  /**
   PHP's `addslashes`, which WordPress applies to every `$_GET` and `$_POST`
   value before a plugin reads it: a backslash before each quote and each
   backslash, and NUL written as the two characters `\0`.
   */
  function AddSlashes(s: string): (r: string)
    ensures |r| >= |s|
    ensures !Free(s, Slashed) ==> |r| > |s|
    ensures Free(s, Slashed) ==> r == s
    decreases |s|
  {
    if |s| == 0 then ""
    else
      assert forall k :: 1 <= k < |s| ==> s[1..][k - 1] == s[k];
      if s[0] == '\0' then "\\0" + AddSlashes(s[1..])
      else if s[0] in Slashed then ['\\', s[0]] + AddSlashes(s[1..])
      else [s[0]] + AddSlashes(s[1..])
  }

  /** Slashing brings in only backslashes and the `0` of an escaped NUL. */
  lemma {:induction false} SlashesFree(s: string, stops: set<char>)
    requires Free(s, stops) && '\\' !in stops && '0' !in stops
    ensures Free(AddSlashes(s), stops)
    decreases |s|
  {
    if |s| > 0 {
      assert forall k :: 1 <= k < |s| ==> s[1..][k - 1] == s[k];
      SlashesFree(s[1..], stops);
      var rest := AddSlashes(s[1..]);
      var head := if s[0] == '\0' then "\\0" else if s[0] in Slashed then ['\\', s[0]] else [s[0]];
      assert AddSlashes(s) == head + rest;
      FreeConcat(head, rest, stops);
    }
  }

  /** Slashing works character by character: it distributes over concatenation. */
  lemma {:induction false} AddSlashesConcat(a: string, b: string)
    ensures AddSlashes(a + b) == AddSlashes(a) + AddSlashes(b)
    decreases |a|
  {
    if |a| == 0 {
      assert a + b == b;
    } else {
      assert (a + b)[0] == a[0];
      assert (a + b)[1..] == a[1..] + b;
      AddSlashesConcat(a[1..], b);
    }
  }

  /** A value changes under `addslashes` exactly when it holds a quote, a backslash or NUL. */
  lemma SlashesKeep(s: string)
    ensures AddSlashes(s) == s <==> Free(s, Slashed)
  {
  }

  /** The ASCII tab and newline characters, which the URL parser removes wherever they occur. */
  const TabNewline: set<char> := {'\t', '\n', '\r'}

  /** `s` without its characters in `gone`, the others kept in order. */
  function Drop(s: string, gone: set<char>): (r: string)
    ensures |r| <= |s|
    ensures Free(r, gone)
    ensures Free(s, gone) ==> r == s
    decreases |s|
  {
    if |s| == 0 then ""
    else
      assert forall k :: 1 <= k < |s| ==> s[1..][k - 1] == s[k];
      if s[0] in gone then Drop(s[1..], gone) else [s[0]] + Drop(s[1..], gone)
  }

  lemma {:induction false} DropConcat(a: string, b: string, gone: set<char>)
    ensures Drop(a + b, gone) == Drop(a, gone) + Drop(b, gone)
    decreases |a|
  {
    if |a| > 0 {
      assert (a + b)[1..] == a[1..] + b;
      DropConcat(a[1..], b, gone);
    } else {
      assert a + b == b;
    }
  }

  /** Dropping characters brings in none. */
  lemma {:induction false} DropFree(s: string, gone: set<char>, stops: set<char>)
    requires Free(s, stops)
    ensures Free(Drop(s, gone), stops)
    decreases |s|
  {
    if |s| > 0 {
      assert forall k :: 1 <= k < |s| ==> s[1..][k - 1] == s[k];
      DropFree(s[1..], gone, stops);
    }
  }

  /** A C0 control or a space: what the URL parser strips from the ends of a URL. */
  predicate IsControlOrSpace(c: char) {
    c <= ' '
  }

  /** `s` without its trailing C0 controls and spaces. */
  function StripTrailing(s: string): (r: string)
    ensures |r| <= |s| && r == s[..|r|]
    ensures |r| > 0 ==> !IsControlOrSpace(r[|r| - 1])
    ensures forall k :: |r| <= k < |s| ==> IsControlOrSpace(s[k])
    decreases |s|
  {
    if |s| == 0 || !IsControlOrSpace(s[|s| - 1]) then s else StripTrailing(s[..|s| - 1])
  }

  /** Stripping the end of `a + b` stops inside `b` when `a` ends in a visible character. */
  lemma {:induction false} StripAfter(a: string, b: string)
    requires |a| > 0 && !IsControlOrSpace(a[|a| - 1])
    ensures StripTrailing(a + b) == a + StripTrailing(b)
    decreases |b|
  {
    if |b| == 0 {
      assert a + b == a;
    } else if IsControlOrSpace(b[|b| - 1]) {
      assert (a + b)[..|a + b| - 1] == a + b[..|b| - 1];
      StripAfter(a, b[..|b| - 1]);
    }
  }

  /** What the URL parser makes of an `href`: trailing controls and spaces stripped, then tabs and newlines removed. */
  function Navigate(href: string): string {
    Drop(StripTrailing(href), TabNewline)
  }

  /** What the URL parser leaves of a value that is not at the end of the URL. */
  function InnerValue(v: string): string {
    Drop(v, TabNewline)
  }

  /** What the URL parser leaves of the value that ends the URL. */
  function FinalValue(v: string): string {
    Drop(StripTrailing(v), TabNewline)
  }

  /** What the parser leaves of a value avoids whatever the value avoided. */
  lemma ValuesFree(v: string, stops: set<char>)
    requires Free(v, stops)
    ensures Free(InnerValue(v), stops) && Free(FinalValue(v), stops)
  {
    DropFree(v, TabNewline, stops);
    var w := StripTrailing(v);
    assert forall k :: 0 <= k < |w| ==> w[k] == v[k];
    DropFree(w, TabNewline, stops);
  }

  /**
   `$_GET[key]` once a visitor opens a link whose query string was written as
   `query`: the value PHP parses from what the URL parser leaves, slashed by
   WordPress.
   */
  function Get(query: string, key: string): Option<string> {
    match Lookup(Explode(Before(Navigate(Before(query, {'"'})), {'#'}), '&'), key)
    case None => None
    case Some(v) => Some(AddSlashes(v))
  }

  /** The characters that end or split a query value where it is written into a link. */
  const Breaks: set<char> := {'&', '#', '"'}

  /** A plain name: no separator, no `=`, nothing `urldecode` changes, nothing the URL parser removes. */
  predicate PlainName(name: string) {
    Free(name, Breaks + {'=', '+', '%'} + TabNewline)
  }

  /** Without `%`, decoding brings in no character of `stops` other than a space. */
  lemma DecodeStaysFree(s: string, stops: set<char>)
    requires '%' !in s && Free(s, stops) && ' ' !in stops
    ensures Free(UrlDecode(s), stops)
  {
    DecodeWithoutEscapes(s);
  }

  /** Decoding changes nothing without `+` and `%`. */
  lemma DecodePlain(s: string)
    requires Free(s, {'+', '%'})
    ensures UrlDecode(s) == s
  {
    DecodeKeeps(s);
  }

  /** The piece `name=value` with a plain name has that name and the decoded value. */
  lemma PairParts(name: string, value: string)
    requires PlainName(name)
    ensures PairName(name + "=" + value) == name
    ensures PairValue(name + "=" + value) == UrlDecode(value)
  {
    var p := name + "=" + value;
    assert Free(name, {'='});
    BeforeStop(name, '=', value, {'='});
    assert name + ['='] + value == p;
    assert p[|name| + 1..] == value;
    assert Free(name, {'+', '%'});
    DecodePlain(name);
  }

  /** A piece `name=value` whose name and value avoid `stops` avoids them too, unless `=` is a stop. */
  lemma PieceFree(name: string, value: string, stops: set<char>)
    requires Free(name, stops) && Free(value, stops) && '=' !in stops
    ensures Free(name + "=" + value, stops)
  {
    FreeConcat(name, "=", stops);
    FreeConcat(name + "=", value, stops);
  }

  /** Two pieces free of `&`, joined by `&`, split back into exactly those two. */
  lemma ExplodeTwo(first: string, second: string)
    requires Free(first, {'&'}) && Free(second, {'&'})
    ensures Explode(first + "&" + second, '&') == [first, second]
  {
    assert first + "&" + second == first + ['&'] + second;
    ExplodeStep(first, '&', second);
    BeforeFree(second, {'&'});
  }

  /** Dropping from a concatenation whose first part has nothing to drop. */
  lemma DropAfter(a: string, b: string, gone: set<char>)
    requires Free(a, gone)
    ensures Drop(a + b, gone) == a + Drop(b, gone)
  {
    DropConcat(a, b, gone);
  }

  /** Dropping from a concatenation whose second part has nothing to drop. */
  lemma DropBefore(a: string, b: string, gone: set<char>)
    requires Free(b, gone)
    ensures Drop(a + b, gone) == Drop(a, gone) + b
  {
    DropConcat(a, b, gone);
  }

  /** Tabs and newlines leave a plain name, a value and a plain separator as the value alone loses them. */
  lemma DropAround(a: string, v: string, b: string)
    requires Free(a, TabNewline) && Free(b, TabNewline)
    ensures Drop(a + v + b, TabNewline) == a + InnerValue(v) + b
  {
    DropBefore(a + v, b, TabNewline);
    DropAfter(a, v, TabNewline);
  }

  /**
   The URL parser on `a + v1 + b + v2`, where the fixed parts `a` and `b`
   hold no tab or newline and `b` ends in a visible character: only the
   values lose anything.
   */
  lemma NavigateParts(a: string, v1: string, b: string, v2: string)
    requires Free(a, TabNewline) && Free(b, TabNewline)
    requires |b| > 0 && !IsControlOrSpace(b[|b| - 1])
    ensures Navigate(a + v1 + b + v2) == a + InnerValue(v1) + b + FinalValue(v2)
  {
    var head := a + v1 + b;
    assert head[|head| - 1] == b[|b| - 1];
    StripAfter(head, v2);
    DropConcat(head, StripTrailing(v2), TabNewline);
    DropAround(a, v1, b);
  }

  /**
   The URL parser keeps a two-parameter query with plain names, except for
   what it removes from each value.
   */
  lemma NavigateTwo(k1: string, v1: string, k2: string, v2: string)
    requires PlainName(k1) && PlainName(k2)
    ensures Navigate(k1 + "=" + v1 + "&" + k2 + "=" + v2) == k1 + "=" + InnerValue(v1) + "&" + k2 + "=" + FinalValue(v2)
  {
    var a, b := k1 + "=", "&" + k2 + "=";
    PlainFixed(k1, k2);
    NavigateParts(a, v1, b, v2);
    Regroup(k1, v1, k2, v2);
    Regroup(k1, InnerValue(v1), k2, FinalValue(v2));
  }

  /** The fixed parts around two plain names hold no tab or newline, and the second ends in `=`. */
  lemma PlainFixed(k1: string, k2: string)
    requires PlainName(k1) && PlainName(k2)
    ensures Free(k1 + "=", TabNewline) && Free("&" + k2 + "=", TabNewline)
    ensures ("&" + k2 + "=")[|"&" + k2 + "="| - 1] == '='
  {
    assert Free(k1, TabNewline) && Free(k2, TabNewline);
    FreeConcat(k1, "=", TabNewline);
    FreeConcat("&", k2, TabNewline);
    FreeConcat("&" + k2, "=", TabNewline);
  }

  /** The query `k1=v1&k2=v2` grouped as fixed part, value, fixed part, value. */
  lemma Regroup(k1: string, v1: string, k2: string, v2: string)
    ensures k1 + "=" + v1 + "&" + k2 + "=" + v2 == (k1 + "=") + v1 + ("&" + k2 + "=") + v2
  {
  }

  /** A two-parameter query with no `"` is the whole `href`. */
  lemma QuoteFreeTwo(k1: string, v1: string, k2: string, v2: string)
    requires PlainName(k1) && PlainName(k2)
    requires Free(v1, Breaks) && Free(v2, Breaks)
    ensures Before(k1 + "=" + v1 + "&" + k2 + "=" + v2, {'"'}) == k1 + "=" + v1 + "&" + k2 + "=" + v2
  {
    assert Free(k1, {'"'}) && Free(v1, {'"'}) && Free(k2, {'"'}) && Free(v2, {'"'});
    PieceFree(k1, v1, {'"'});
    PieceFree(k2, v2, {'"'});
    FreeConcat(k1 + "=" + v1, "&", {'"'});
    FreeConcat(k1 + "=" + v1 + "&", k2 + "=" + v2, {'"'});
    assert k1 + "=" + v1 + "&" + k2 + "=" + v2 == k1 + "=" + v1 + "&" + (k2 + "=" + v2);
    BeforeFree(k1 + "=" + v1 + "&" + k2 + "=" + v2, {'"'});
  }

  /** A two-parameter URL with no `#` is read whole, and splits into its two pieces. */
  lemma SplitTwo(k1: string, v1: string, k2: string, v2: string)
    requires PlainName(k1) && PlainName(k2)
    requires Free(v1, Breaks) && Free(v2, Breaks)
    ensures Explode(Before(k1 + "=" + v1 + "&" + k2 + "=" + v2, {'#'}), '&') == [k1 + "=" + v1, k2 + "=" + v2]
  {
    var first := k1 + "=" + v1;
    var second := k2 + "=" + v2;
    var q := k1 + "=" + v1 + "&" + k2 + "=" + v2;
    assert q == first + "&" + second;
    assert Free(k1, {'#'}) && Free(v1, {'#'}) && Free(k2, {'#'}) && Free(v2, {'#'});
    PieceFree(k1, v1, {'#'});
    PieceFree(k2, v2, {'#'});
    FreeConcat(first, "&", {'#'});
    FreeConcat(first + "&", second, {'#'});
    BeforeFree(q, {'#'});
    assert Free(k1, {'&'}) && Free(v1, {'&'}) && Free(k2, {'&'}) && Free(v2, {'&'});
    PieceFree(k1, v1, {'&'});
    PieceFree(k2, v2, {'&'});
    ExplodeTwo(first, second);
  }

  /**
   A two-parameter query with no `#` or `"` is read whole, and splits into
   its two pieces as the URL parser leaves them.
   */
  lemma PiecesOfTwo(k1: string, v1: string, k2: string, v2: string)
    requires PlainName(k1) && PlainName(k2)
    requires Free(v1, Breaks) && Free(v2, Breaks)
    ensures Explode(Before(Navigate(Before(k1 + "=" + v1 + "&" + k2 + "=" + v2, {'"'})), {'#'}), '&')
            == [k1 + "=" + InnerValue(v1), k2 + "=" + FinalValue(v2)]
  {
    QuoteFreeTwo(k1, v1, k2, v2);
    NavigateTwo(k1, v1, k2, v2);
    ValuesFree(v1, Breaks);
    ValuesFree(v2, Breaks);
    SplitTwo(k1, InnerValue(v1), k2, FinalValue(v2));
  }

  /** Among two pieces with different names, each name finds its own piece. */
  lemma LookupTwo(first: string, second: string, k1: string, k2: string)
    requires PairName(first) == k1 && PairName(second) == k2 && k1 != k2
    ensures Lookup([first, second], k1) == Some(PairValue(first))
    ensures Lookup([first, second], k2) == Some(PairValue(second))
  {
    assert [first, second][..1] == [first];
    assert [first][..0] == [];
  }

  /**
   A two-parameter query `k1=v1&k2=v2` with distinct plain names, whose
   values hold no `&`, `#` or `"`, reaches the page as the two values,
   each as the URL parser leaves it, url-decoded and then slashed.
   */
  lemma GetTwo(k1: string, v1: string, k2: string, v2: string)
    requires PlainName(k1) && PlainName(k2) && k1 != k2
    requires Free(v1, Breaks) && Free(v2, Breaks)
    ensures Get(k1 + "=" + v1 + "&" + k2 + "=" + v2, k1) == Some(AddSlashes(UrlDecode(InnerValue(v1))))
    ensures Get(k1 + "=" + v1 + "&" + k2 + "=" + v2, k2) == Some(AddSlashes(UrlDecode(FinalValue(v2))))
  {
    PiecesOfTwo(k1, v1, k2, v2);
    PairParts(k1, InnerValue(v1));
    PairParts(k2, FinalValue(v2));
    LookupTwo(k1 + "=" + InnerValue(v1), k2 + "=" + FinalValue(v2), k1, k2);
  }
}

=== FILE: scheduler.dfy ===
/**
 The plugin's use of WordPress cron: the check-then-register of the two
 recurring hooks, the extra `everyminute` schedule, and the teardown run
 on deactivation. The host's cron store is a list of events; scheduling
 an event appends one, so only the plugin's own check keeps a hook from
 being registered twice.
 */
module Scheduler {
  import opened Options
  import opened Seqs

  /** A scheduled event: the hook it fires, its recurrence name, and when it is next due. */
  datatype Event = Event(hook: string, recurrence: string, time: int)

  /** The hook that runs the broadcast. */
  const SendHook: string := "wpam_scheduled_send"

  /** The hook that runs the sweep of unconfirmed rows. */
  const SweepHook: string := "scheduled_delete_unconfirmed"

  /** `wp_next_scheduled`: the earliest time an event of the hook is due, or nothing when it has none. */
  function NextScheduled(cron: seq<Event>, hook: string): (r: Option<int>)
    ensures r.None? <==> forall e :: e in cron ==> e.hook != hook
    ensures r.Some? ==> exists e :: e in cron && e.hook == hook && e.time == r.value
    ensures r.Some? ==> forall e :: e in cron && e.hook == hook ==> r.value <= e.time
  {
    if |cron| == 0 then None
    else
      assert cron == [cron[0]] + cron[1..];
      var rest := NextScheduled(cron[1..], hook);
      if cron[0].hook != hook then rest
      else if rest.Some? && rest.value < cron[0].time then rest
      else Some(cron[0].time)
  }

  function EventsOf(hook: string): Event -> bool {
    (e: Event) => e.hook == hook
  }

  function NotOf(hook: string): Event -> bool {
    (e: Event) => e.hook != hook
  }

  function NotDueAt(hook: string, time: Option<int>): Event -> bool {
    (e: Event) => !(e.hook == hook && time == Some(e.time))
  }

  /** The events of one hook, in list order. */
  function Scheduled(cron: seq<Event>, hook: string): seq<Event> {
    Filter(EventsOf(hook), cron)
  }

  /** `wp_schedule_event`: one more event of the hook, first due at `time`. */
  function ScheduleEvent(cron: seq<Event>, time: int, recurrence: string, hook: string): seq<Event> {
    cron + [Event(hook, recurrence, time)]
  }

  /** `wp_unschedule_event`: drops the hook's events due at `time`; no time drops nothing. */
  function UnscheduleEvent(cron: seq<Event>, time: Option<int>, hook: string): seq<Event> {
    Filter(NotDueAt(hook, time), cron)
  }

  /** `wp_clear_scheduled_hook`: drops every event of the hook. */
  function ClearScheduledHook(cron: seq<Event>, hook: string): seq<Event> {
    Filter(NotOf(hook), cron)
  }

  /** A hook whose event list is empty is not scheduled. */
  lemma NotScheduled(cron: seq<Event>, hook: string)
    requires NextScheduled(cron, hook).None?
    ensures Scheduled(cron, hook) == []
  {
  }

  /**
   The check-then-register shape of `cronstarter_activation` and
   `cron_delete_unconfirmed`: schedule the hook only when it has no event.
   Other hooks' events are untouched, and the hook ends up with exactly one
   event if it had none.
   */
  function Register(cron: seq<Event>, hook: string, recurrence: string, now: int): (r: seq<Event>)
    ensures NextScheduled(cron, hook).Some? ==> r == cron
    ensures NextScheduled(cron, hook).None? ==> Scheduled(r, hook) == [Event(hook, recurrence, now)]
    ensures NextScheduled(r, hook).Some?
    ensures forall h :: h != hook ==> Scheduled(r, h) == Scheduled(cron, h)
  {
    if NextScheduled(cron, hook).None? then
      var e := Event(hook, recurrence, now);
      NotScheduled(cron, hook);
      assert e in ScheduleEvent(cron, now, recurrence, hook);
      FilterConcat(EventsOf(hook), cron, [e]);
      assert forall h :: Scheduled(ScheduleEvent(cron, now, recurrence, hook), h) == Scheduled(cron, h) + Filter(EventsOf(h), [e]) by {
        forall h ensures Scheduled(ScheduleEvent(cron, now, recurrence, hook), h) == Scheduled(cron, h) + Filter(EventsOf(h), [e]) {
          FilterConcat(EventsOf(h), cron, [e]);
        }
      }
      ScheduleEvent(cron, now, recurrence, hook)
    else cron
  }

  /** `cronstarter_activation`: the broadcast hook, hourly, first due now, unless it is already scheduled. */
  function CronstarterActivation(cron: seq<Event>, now: int): (r: seq<Event>)
    ensures NextScheduled(cron, SendHook).Some? ==> r == cron
    ensures NextScheduled(cron, SendHook).None? ==> Scheduled(r, SendHook) == [Event(SendHook, "hourly", now)]
    ensures forall h :: h != SendHook ==> Scheduled(r, h) == Scheduled(cron, h)
  {
    Register(cron, SendHook, "hourly", now)
  }

  /** `cron_delete_unconfirmed`: the sweep hook, twice daily, first due now, unless it is already scheduled. */
  function CronDeleteUnconfirmed(cron: seq<Event>, now: int): (r: seq<Event>)
    ensures NextScheduled(cron, SweepHook).Some? ==> r == cron
    ensures NextScheduled(cron, SweepHook).None? ==> Scheduled(r, SweepHook) == [Event(SweepHook, "twicedaily", now)]
    ensures forall h :: h != SweepHook ==> Scheduled(r, h) == Scheduled(cron, h)
  {
    Register(cron, SweepHook, "twicedaily", now)
  }

  /** Registering a hook a second time changes nothing. */
  lemma RegisterIdempotent(cron: seq<Event>, hook: string, recurrence: string, now: int, later: int)
    ensures Register(Register(cron, hook, recurrence, now), hook, recurrence, later) == Register(cron, hook, recurrence, now)
  {
  }

  /** One page load: both registrations run, as the `wp` action does. */
  function Tick(cron: seq<Event>, now: int): seq<Event> {
    CronDeleteUnconfirmed(CronstarterActivation(cron, now), now)
  }

  /** A run of page loads at the given times. */
  function Ticks(cron: seq<Event>, times: seq<int>): seq<Event>
    decreases |times|
  {
    if |times| == 0 then cron else Ticks(Tick(cron, times[0]), times[1..])
  }

  /**
   However many page loads there are, a cron store that started with at
   most one event per hook ends with exactly one broadcast event and one
   sweep event, and no other hook's events change.
   */
  lemma {:induction false} TicksKeepOneEach(cron: seq<Event>, times: seq<int>)
    requires |times| > 0
    requires |Scheduled(cron, SendHook)| <= 1 && |Scheduled(cron, SweepHook)| <= 1
    ensures |Scheduled(Ticks(cron, times), SendHook)| == 1
    ensures |Scheduled(Ticks(cron, times), SweepHook)| == 1
    ensures forall h :: h != SendHook && h != SweepHook ==> Scheduled(Ticks(cron, times), h) == Scheduled(cron, h)
    decreases |times|
  {
    var next := Tick(cron, times[0]);
    assert |Scheduled(next, SendHook)| == 1 by {
      var c1 := CronstarterActivation(cron, times[0]);
      if NextScheduled(cron, SendHook).Some? {
        var e :| e in cron && e.hook == SendHook && e.time == NextScheduled(cron, SendHook).value;
        assert e in Scheduled(cron, SendHook);
      }
      assert Scheduled(next, SendHook) == Scheduled(c1, SendHook);
    }
    assert |Scheduled(next, SweepHook)| == 1 by {
      var c1 := CronstarterActivation(cron, times[0]);
      if NextScheduled(c1, SweepHook).Some? {
        var e :| e in c1 && e.hook == SweepHook && e.time == NextScheduled(c1, SweepHook).value;
        assert e in Scheduled(c1, SweepHook);
      }
    }
    if |times| > 1 {
      TicksKeepOneEach(next, times[1..]);
    }
  }

  /**
   `Autosend_Mail_Deactivator::deactivate`: unschedule each hook's next
   event, then clear both hooks. Afterwards neither hook is scheduled and
   every other hook keeps its events.
   */
  function Deactivate(cron: seq<Event>): (r: seq<Event>)
    ensures NextScheduled(r, SendHook).None?
    ensures NextScheduled(r, SweepHook).None?
    ensures forall e :: e in r <==> e in cron && e.hook != SendHook && e.hook != SweepHook
    ensures forall h :: h != SendHook && h != SweepHook ==> Scheduled(r, h) == Scheduled(cron, h)
  {
    var c1 := UnscheduleEvent(cron, NextScheduled(cron, SendHook), SendHook);
    var c2 := UnscheduleEvent(c1, NextScheduled(c1, SweepHook), SweepHook);
    var c3 := ClearScheduledHook(c2, SendHook);
    var r := ClearScheduledHook(c3, SweepHook);
    assert forall h :: h != SendHook && h != SweepHook ==> Scheduled(r, h) == Scheduled(cron, h) by {
      forall h | h != SendHook && h != SweepHook
        ensures Scheduled(r, h) == Scheduled(cron, h)
      {
        FilterCompose(EventsOf(h), NotOf(SweepHook), EventsOf(h), c3);
        FilterCompose(EventsOf(h), NotOf(SendHook), EventsOf(h), c2);
        FilterCompose(EventsOf(h), NotDueAt(SweepHook, NextScheduled(c1, SweepHook)), EventsOf(h), c1);
        FilterCompose(EventsOf(h), NotDueAt(SendHook, NextScheduled(cron, SendHook)), EventsOf(h), cron);
      }
    }
    r
  }

  /** With neither hook scheduled, deactivation changes nothing. */
  lemma DeactivateIdempotent(cron: seq<Event>)
    requires NextScheduled(cron, SendHook).None? && NextScheduled(cron, SweepHook).None?
    ensures Deactivate(cron) == cron
  {
    FilterAll(NotDueAt(SendHook, None), cron);
    FilterAll(NotDueAt(SweepHook, None), cron);
    FilterAll(NotOf(SendHook), cron);
    FilterAll(NotOf(SweepHook), cron);
  }

  /** Activation after deactivation registers exactly one broadcast event. */
  lemma ReactivateAfterDeactivate(cron: seq<Event>, now: int)
    ensures Scheduled(CronstarterActivation(Deactivate(cron), now), SendHook) == [Event(SendHook, "hourly", now)]
  {
  }

  /** A recurrence of `cron_schedules`: its period in seconds and its label. */
  datatype Recurrence = Recurrence(interval: int, display: string)

  const MinuteSchedule: string := "everyminute"

  /** `cron_add_minute`: adds a 60-second schedule named `everyminute` and keeps every other schedule. */
  function CronAddMinute(schedules: map<string, Recurrence>): (r: map<string, Recurrence>)
    ensures r.Keys == schedules.Keys + {MinuteSchedule}
    ensures r[MinuteSchedule].interval == 60
    ensures forall k :: k in schedules && k != MinuteSchedule ==> r[k] == schedules[k]
  {
    schedules[MinuteSchedule := Recurrence(60, "Once Every Minute")]
  }
}

=== FILE: seqs.dfy ===
/**
 Order-preserving selection over sequences. Every query and every delete on
 the subscriber table, and every removal from the cron event list, is a
 `Filter` with some row predicate.
 */
module Seqs {

  /** The elements of `s` for which `keep` holds, in their original order. */
  function Filter<T(!new)>(keep: T -> bool, s: seq<T>): (r: seq<T>)
    ensures |r| <= |s|
    ensures forall x :: x in r <==> x in s && keep(x)
  {
    if |s| == 0 then []
    else
      assert s == [s[0]] + s[1..];
      if keep(s[0]) then [s[0]] + Filter(keep, s[1..]) else Filter(keep, s[1..])
  }

  /** Selecting with a predicate every element satisfies changes nothing. */
  lemma {:induction false} FilterAll<T(!new)>(keep: T -> bool, s: seq<T>)
    requires forall x :: x in s ==> keep(x)
    ensures Filter(keep, s) == s
  {
    if |s| > 0 {
      assert s[0] in s;
      assert forall x :: x in s[1..] ==> x in s;
      FilterAll(keep, s[1..]);
      assert s == [s[0]] + s[1..];
    }
  }

  /** Selecting twice with the same predicate is selecting once. */
  lemma FilterIdempotent<T(!new)>(keep: T -> bool, s: seq<T>)
    ensures Filter(keep, Filter(keep, s)) == Filter(keep, s)
  {
    FilterAll(keep, Filter(keep, s));
  }

  /** Only the predicate's values on the elements of `s` matter. */
  lemma {:induction false} FilterExt<T(!new)>(k1: T -> bool, k2: T -> bool, s: seq<T>)
    requires forall x :: x in s ==> k1(x) == k2(x)
    ensures Filter(k1, s) == Filter(k2, s)
  {
    if |s| > 0 {
      assert s[0] in s;
      assert forall x :: x in s[1..] ==> x in s;
      FilterExt(k1, k2, s[1..]);
    }
  }

  /** Two selections in a row are one selection with the conjunction. */
  lemma {:induction false} FilterCompose<T(!new)>(outer: T -> bool, inner: T -> bool, both: T -> bool, s: seq<T>)
    requires forall x :: x in s ==> both(x) == (outer(x) && inner(x))
    ensures Filter(outer, Filter(inner, s)) == Filter(both, s)
  {
    if |s| > 0 {
      assert s[0] in s;
      assert forall x :: x in s[1..] ==> x in s;
      FilterCompose(outer, inner, both, s[1..]);
    }
  }

  /** Selection distributes over concatenation. */
  lemma {:induction false} FilterConcat<T(!new)>(keep: T -> bool, a: seq<T>, b: seq<T>)
    ensures Filter(keep, a + b) == Filter(keep, a) + Filter(keep, b)
  {
    if |a| == 0 {
      assert a + b == b;
    } else {
      assert (a + b)[0] == a[0];
      assert (a + b)[1..] == a[1..] + b;
      FilterConcat(keep, a[1..], b);
    }
  }

  /** A predicate and its negation split `s` into two parts whose sizes add up to `|s|`. */
  lemma {:induction false} FilterSplit<T(!new)>(keep: T -> bool, drop: T -> bool, s: seq<T>)
    requires forall x :: x in s ==> drop(x) == !keep(x)
    ensures |Filter(keep, s)| + |Filter(drop, s)| == |s|
  {
    if |s| > 0 {
      assert s[0] in s;
      assert forall x :: x in s[1..] ==> x in s;
      FilterSplit(keep, drop, s[1..]);
    }
  }

  /** A relation that holds between every earlier and later element still holds after selection. */
  lemma {:induction false} FilterPairwise<T(!new)>(keep: T -> bool, ok: (T, T) -> bool, s: seq<T>)
    requires forall i, j :: 0 <= i < j < |s| ==> ok(s[i], s[j])
    ensures forall i, j :: 0 <= i < j < |Filter(keep, s)| ==> ok(Filter(keep, s)[i], Filter(keep, s)[j])
  {
    if |s| > 0 {
      var rest := s[1..];
      assert forall i, j :: 0 <= i < j < |rest| ==> ok(rest[i], rest[j]) by {
        forall i, j | 0 <= i < j < |rest| ensures ok(rest[i], rest[j]) {
          assert rest[i] == s[i + 1] && rest[j] == s[j + 1];
        }
      }
      FilterPairwise(keep, ok, rest);
      assert forall y :: y in rest ==> ok(s[0], y) by {
        forall y | y in rest ensures ok(s[0], y) {
          var j :| 0 <= j < |rest| && rest[j] == y;
          assert s[j + 1] == y;
        }
      }
    }
  }
}

=== FILE: sql.dfy ===
/**
 How MySQL reads a value that the plugin splices between the quotes of a
 string literal in its raw SQL text, as in the sign-up check and the two
 `get_var` lookups.
 */
module Sql {
  import opened Query

  /**
   The character MySQL reads for a backslash escape `\c` inside a string
   literal (section 11.1.1 "String Literals" of the MySQL Reference Manual):
   `\0`, `\b`, `\n`, `\r`, `\t` and `\Z` stand for control characters,
   `\%` and `\_` keep their backslash, and any other `\c` is `c`.
   */
  function Escaped(c: char): string {
    if c == '0' then "\0"
    else if c == 'b' then "\U{8}"
    else if c == 'n' then "\n"
    else if c == 'r' then "\r"
    else if c == 't' then "\t"
    else if c == 'Z' then "\U{1A}"
    else if c == '%' || c == '_' then ['\\', c]
    else [c]
  }

  /**
   The value MySQL reads from the text between the quotes of a string
   literal: backslash escapes are resolved and `''` is one quote.
   */
  function LiteralText(body: string): string
    decreases |body|
  {
    if |body| == 0 then ""
    else if body[0] == '\\' && |body| >= 2 then Escaped(body[1]) + LiteralText(body[2..])
    else if body[0] == '\'' && |body| >= 2 && body[1] == '\'' then "'" + LiteralText(body[2..])
    else [body[0]] + LiteralText(body[1..])
  }

  /**
   A slashed value spliced into a string literal reads back as the value
   before slashing: MySQL's escapes undo `addslashes`.
   */
  lemma {:induction false} LiteralUndoesSlashes(s: string)
    ensures LiteralText(AddSlashes(s)) == s
    decreases |s|
  {
    if |s| > 0 {
      var rest := AddSlashes(s[1..]);
      LiteralUndoesSlashes(s[1..]);
      if s[0] == '\0' {
        assert AddSlashes(s) == "\\0" + rest;
        assert ("\\0" + rest)[2..] == rest;
      } else if s[0] in Slashed {
        assert AddSlashes(s) == ['\\', s[0]] + rest;
        assert (['\\', s[0]] + rest)[2..] == rest;
      } else {
        assert AddSlashes(s) == [s[0]] + rest;
        assert ([s[0]] + rest)[1..] == rest;
      }
      assert s == [s[0]] + s[1..];
    }
  }
}

=== FILE: store.dfy ===
/**
 The subscriber table `autosend_mail_recipients` and the store-level
 operations the workflows run on it: the lookups, the insert, the
 confirming update and the deletes. A lookup is exact equality on the
 row fields.
 */
module Store {
  import opened Options
  import opened Seqs
  import opened Tokens

  /** The `confirmed` value of a confirmed subscriber; any other value means pending. */
  const ConfirmedFlag: string := "1"

  /** The `confirmed` value of a freshly inserted row: the insert does not set the column. */
  const PendingFlag: string := ""

  /** One row: auto-increment id, creation time in seconds, address, token and flag. */
  datatype Row = Row(id: nat, timestamp: int, email: string, ruid: string, confirmed: string)

  /** The rows in table order, and the next value of the auto-increment counter. */
  datatype Table = Table(rows: seq<Row>, nextId: nat)

  predicate IsConfirmed(row: Row) {
    row.confirmed == ConfirmedFlag
  }

  predicate IsPending(row: Row) {
    row.confirmed != ConfirmedFlag
  }

  /** The `WHERE ruid = ... AND email = ...` condition of confirm and remove. */
  predicate Matches(row: Row, ruid: string, email: string) {
    row.ruid == ruid && row.email == email
  }

  /** No two rows share an id: `id` is the primary key. */
  predicate UniqueIds(rows: seq<Row>) {
    forall i, j :: 0 <= i < j < |rows| ==> rows[i].id != rows[j].id
  }

  /**
   What holds of every table the plugin produces: ids are positive (the
   auto-increment counter starts at 1), below the counter, and distinct, and
   every `ruid` came out of the token generator.
   */
  predicate Valid(t: Table) {
    && t.nextId >= 1
    && (forall row :: row in t.rows ==> 1 <= row.id < t.nextId && IsToken(row.ruid))
    && UniqueIds(t.rows)
  }

  /** Under the invariant, a row is determined by its id. */
  lemma SameIdSameRow(t: Table, a: Row, b: Row)
    requires Valid(t) && a in t.rows && b in t.rows && a.id == b.id
    ensures a == b
  {
    var i :| 0 <= i < |t.rows| && t.rows[i] == a;
    var j :| 0 <= j < |t.rows| && t.rows[j] == b;
    assert i == j;
  }

  /** Some confirmed row carries this address. */
  predicate HasConfirmed(rows: seq<Row>, email: string) {
    exists row :: row in rows && row.email == email && IsConfirmed(row)
  }

  /** Some row carries this (token, address) pair. */
  predicate HasMatch(rows: seq<Row>, ruid: string, email: string) {
    exists row :: row in rows && Matches(row, ruid, email)
  }

  /** `get_var` on `SELECT *`: the first column (the id) of the first matching row, if there is one. */
  function FirstMatchId(rows: seq<Row>, ruid: string, email: string): (r: Option<nat>)
    ensures r.None? <==> !HasMatch(rows, ruid, email)
    ensures r.Some? ==> exists row :: row in rows && Matches(row, ruid, email) && row.id == r.value
  {
    if |rows| == 0 then None
    else
      assert rows == [rows[0]] + rows[1..];
      if Matches(rows[0], ruid, email) then Some(rows[0].id)
      else FirstMatchId(rows[1..], ruid, email)
  }

  /**
   The test `get_var(...) > 0`; a missing result compares as not greater than 0.
   It only reports a row that matches, and it reports every match once ids are
   positive, as the auto-increment counter makes them.
   */
  function Found(rows: seq<Row>, ruid: string, email: string): (b: bool)
    ensures b ==> HasMatch(rows, ruid, email)
    ensures (forall row :: row in rows ==> row.id >= 1) ==> (b <==> HasMatch(rows, ruid, email))
  {
    var id := FirstMatchId(rows, ruid, email);
    id.Some? && id.value > 0
  }

  /** One pending row for `email` and `ruid`, created at `now` with the counter's id, was appended. */
  predicate AppendsPending(t: Table, r: Table, email: string, ruid: string, now: int) {
    && |r.rows| == |t.rows| + 1
    && r.rows[..|t.rows|] == t.rows
    && r.nextId == t.nextId + 1
    && var row := r.rows[|t.rows|];
       row.id == t.nextId && row.timestamp == now && row.email == email && row.ruid == ruid && IsPending(row)
  }

  /** The sign-up insert: the id comes from the counter, the timestamp defaults to now, `confirmed` is left empty. */
  function Insert(t: Table, email: string, ruid: string, now: int): (r: Table)
    ensures AppendsPending(t, r, email, ruid, now)
    ensures Valid(t) ==> forall row :: row in t.rows ==> row.id != r.rows[|t.rows|].id
    ensures Valid(t) && IsToken(ruid) ==> Valid(r)
  {
    var r := Table(t.rows + [Row(t.nextId, now, email, ruid, PendingFlag)], t.nextId + 1);
    assert forall row :: row in r.rows ==> row in t.rows || row == r.rows[|t.rows|];
    r
  }

  /** `UPDATE ... SET confirmed = '1' WHERE email = ... AND ruid = ...`, row by row. */
  function MarkConfirmed(rows: seq<Row>, ruid: string, email: string): (r: seq<Row>)
    ensures |r| == |rows|
    ensures forall i :: 0 <= i < |rows| && Matches(rows[i], ruid, email) ==> r[i] == rows[i].(confirmed := ConfirmedFlag)
    ensures forall i :: 0 <= i < |rows| && !Matches(rows[i], ruid, email) ==> r[i] == rows[i]
  {
    if |rows| == 0 then []
    else
      var head := if Matches(rows[0], ruid, email) then rows[0].(confirmed := ConfirmedFlag) else rows[0];
      [head] + MarkConfirmed(rows[1..], ruid, email)
  }

  /** Confirming touches only the flag, so the table invariant survives it. */
  lemma MarkConfirmedValid(t: Table, ruid: string, email: string)
    ensures Valid(t) ==> Valid(Table(MarkConfirmed(t.rows, ruid, email), t.nextId))
  {
    if Valid(t) {
      var r := MarkConfirmed(t.rows, ruid, email);
      forall row | row in r
        ensures 1 <= row.id < t.nextId && IsToken(row.ruid)
      {
        var i :| 0 <= i < |r| && r[i] == row;
        assert t.rows[i] in t.rows;
      }
    }
  }

  /** After confirming a pair, every row with that pair is confirmed and the pair still matches. */
  lemma MarkConfirmedMatches(rows: seq<Row>, ruid: string, email: string)
    ensures HasMatch(MarkConfirmed(rows, ruid, email), ruid, email) <==> HasMatch(rows, ruid, email)
    ensures forall row :: row in MarkConfirmed(rows, ruid, email) && Matches(row, ruid, email) ==> IsConfirmed(row)
  {
    var r := MarkConfirmed(rows, ruid, email);
    if HasMatch(rows, ruid, email) {
      var row :| row in rows && Matches(row, ruid, email);
      var i :| 0 <= i < |rows| && rows[i] == row;
      assert r[i] in r;
    }
    if HasMatch(r, ruid, email) {
      var row :| row in r && Matches(row, ruid, email);
      var i :| 0 <= i < |r| && r[i] == row;
      assert rows[i] in rows;
    }
  }

  /** Confirming a pair twice is confirming it once. */
  lemma MarkConfirmedIdempotent(rows: seq<Row>, ruid: string, email: string)
    ensures MarkConfirmed(MarkConfirmed(rows, ruid, email), ruid, email) == MarkConfirmed(rows, ruid, email)
  {
  }

  /** The rows a filtered `DELETE` keeps still satisfy the table invariant. */
  lemma FilterValid(keep: Row -> bool, t: Table)
    ensures Valid(t) ==> Valid(Table(Filter(keep, t.rows), t.nextId))
  {
    if Valid(t) {
      FilterPairwise(keep, (a: Row, b: Row) => a.id != b.id, t.rows);
    }
  }

  /** The rows a `DELETE ... WHERE email = ... AND ruid = ...` keeps. */
  function KeepUnmatched(ruid: string, email: string): Row -> bool {
    (row: Row) => !Matches(row, ruid, email)
  }

  /** The rows a `DELETE ... WHERE id IN ids` keeps. */
  function KeepIds(ids: set<nat>): Row -> bool {
    (row: Row) => row.id !in ids
  }

  /** `SELECT * ... WHERE confirmed = '1'`, in table order. */
  function ConfirmedRows(rows: seq<Row>): seq<Row> {
    Filter(IsConfirmed, rows)
  }

  /** `SELECT * ... WHERE confirmed != '1'`, in table order. */
  function PendingRows(rows: seq<Row>): seq<Row> {
    Filter(IsPending, rows)
  }
}

=== FILE: subscription.dfy ===
/**
 The request-driven workflows of the mailing list: sign-up with a
 confirmation mail (`wpam_add_address`, `sendConfirmation`), confirmation
 (`wpam_confirm_address`) and removal (`wpam_remove_address`). Form and query
 parameters become arguments: an absent parameter is `None`. The clock, the
 random draws and the outcome of the insert are arguments too.
 */
module Subscription {
  import opened Options
  import opened Seqs
  import opened Text
  import opened Tokens
  import opened Store
  import opened Mails

  /** The notices the workflows render. */
  datatype Notice =
    | EmailExists
    | OrderFailed
    | ConfirmationSent
    | ThankYou
    | LinkMayBeExpired
    | Removed(email: string)
    | NotFound

  /** The visible text of each notice. */
  function NoticeText(n: Notice): string {
    match n
    case EmailExists => "Email already exists"
    case OrderFailed => "Order failed"
    case ConfirmationSent => "A confirmation message has been sent to your email."
    case ThankYou => "Thank you!"
    case LinkMayBeExpired => "Confirmation link may be expired"
    case Removed(email) => email + " removed"
    case NotFound => "Not found"
  }

  /** A removal notice's text ends in " removed". */
  lemma RemovedSuffix(email: string)
    ensures var text := NoticeText(Removed(email));
            |text| >= 8 && text[|text| - 8..] == " removed" && text[..|text| - 8] == email
  {
  }

  /** The visible text tells the notices apart: two notices with the same text are the same notice. */
  lemma NoticeTextInjective(a: Notice, b: Notice)
    requires NoticeText(a) == NoticeText(b)
    ensures a == b
  {
    if a.Removed? {
      RemovedSuffix(a.email);
    }
    if b.Removed? {
      RemovedSuffix(b.email);
    }
  }

  /** What the sign-up shortcode returns: the order form, or a notice instead of it. */
  datatype Page = OrderForm | Shown(notice: Notice)

  /** A request's effect: the table afterwards, the mails sent, and the reply. */
  datatype Effect<R> = Effect(table: Table, sent: seq<Mail>, reply: R)

  /** The reply of confirm and remove: the table afterwards and the notice, absent when a parameter is missing. */
  datatype Reply = Reply(table: Table, notice: Option<Notice>)

  /** Exactly one mail went out, to `email`, and its link's query string names `ruid` and `email`. */
  predicate SentConfirmation(sent: seq<Mail>, email: string, ruid: string) {
    |sent| == 1 && sent[0].to == email && ConfirmationQuery(sent[0].body) == Some(ConfirmQuery(ruid, email))
  }

  /**
   `sendConfirmation`: trim the posted address, build a token from the draws,
   insert a pending row and mail the confirmation link. When the insert
   fails nothing is stored or sent.
   */
  function SendConfirmation(t: Table, post: string, now: int, draws: seq<nat>, insertOk: bool): (r: Effect<Notice>)
    requires ValidDraws(draws)
    ensures !insertOk ==> r == Effect(t, [], OrderFailed)
    ensures insertOk ==>
              && r.reply == ConfirmationSent
              && AppendsPending(t, r.table, Trim(post), Token(draws), now)
              && SentConfirmation(r.sent, Trim(post), Token(draws))
    ensures Valid(t) ==> Valid(r.table)
  {
    var email := Trim(post);
    var ruid := Token(draws);
    if !insertOk then Effect(t, [], OrderFailed)
    else
      Effect(Insert(t, email, ruid, now), [ConfirmationMail(email, ruid)], ConfirmationSent)
  }

  /**
   `wpam_add_address`: with no posted address, just the form. An address
   that already has a confirmed row gets the duplicate notice and nothing
   else. Otherwise `sendConfirmation` runs, its notice is discarded, and the
   form is returned; earlier pending rows for the address stay. `post` is
   `$_POST['wpam_new_address']` as the plugin reads it, already slashed by
   WordPress (`Query.AddSlashes`).
   */
  function SignUp(t: Table, post: Option<string>, now: int, draws: seq<nat>, insertOk: bool): (r: Effect<Page>)
    requires ValidDraws(draws)
    ensures post.None? ==> r == Effect(t, [], OrderForm)
    ensures post.Some? && HasConfirmed(t.rows, Trim(post.value)) ==> r == Effect(t, [], Shown(EmailExists))
    ensures post.Some? && !HasConfirmed(t.rows, Trim(post.value)) ==>
              && r.reply == OrderForm
              && (insertOk ==>
                    AppendsPending(t, r.table, Trim(post.value), Token(draws), now)
                    && SentConfirmation(r.sent, Trim(post.value), Token(draws)))
              && (!insertOk ==> r.table == t && r.sent == [])
    ensures Valid(t) ==> Valid(r.table)
  {
    if post.None? then Effect(t, [], OrderForm)
    else if HasConfirmed(t.rows, Trim(post.value)) then Effect(t, [], Shown(EmailExists))
    else
      var e := SendConfirmation(t, post.value, now, draws, insertOk);
      Effect(e.table, e.sent, OrderForm)
  }

  /**
   `wpam_confirm_address`: with both parameters and a matching row, set the
   flag on every row with that (token, address) pair, whatever its state;
   with no match, report a possibly expired link and change nothing.
   */
  function Confirm(t: Table, ruid: Option<string>, email: Option<string>): (r: Reply)
    ensures ruid.None? || email.None? ==> r == Reply(t, None)
    ensures ruid.Some? && email.Some? && Valid(t) ==>
              && (r.notice == Some(ThankYou) <==> HasMatch(t.rows, ruid.value, email.value))
              && (r.notice == Some(LinkMayBeExpired) <==> !HasMatch(t.rows, ruid.value, email.value))
    ensures r.notice == Some(LinkMayBeExpired) ==> r.table == t
    ensures ruid.Some? && email.Some? && r.notice == Some(ThankYou) ==>
              && r.table.nextId == t.nextId
              && |r.table.rows| == |t.rows|
              && (forall i :: 0 <= i < |t.rows| && Matches(t.rows[i], ruid.value, email.value) ==>
                    r.table.rows[i] == t.rows[i].(confirmed := ConfirmedFlag))
              && (forall i :: 0 <= i < |t.rows| && !Matches(t.rows[i], ruid.value, email.value) ==>
                    r.table.rows[i] == t.rows[i])
    ensures Valid(t) ==> Valid(r.table)
  {
    if ruid.None? || email.None? then Reply(t, None)
    else if Found(t.rows, ruid.value, email.value) then
      MarkConfirmedValid(t, ruid.value, email.value);
      Reply(Table(MarkConfirmed(t.rows, ruid.value, email.value), t.nextId), Some(ThankYou))
    else Reply(t, Some(LinkMayBeExpired))
  }

  /**
   `wpam_remove_address`: with both parameters and a matching row, delete
   every row with that (token, address) pair, pending or confirmed, and
   report the address removed; with no match, report not found.
   */
  function Unsubscribe(t: Table, ruid: Option<string>, email: Option<string>): (r: Reply)
    ensures ruid.None? || email.None? ==> r == Reply(t, None)
    ensures ruid.Some? && email.Some? && Valid(t) ==>
              && (r.notice == Some(Removed(email.value)) <==> HasMatch(t.rows, ruid.value, email.value))
              && (r.notice == Some(NotFound) <==> !HasMatch(t.rows, ruid.value, email.value))
    ensures r.notice == Some(NotFound) ==> r.table == t
    ensures ruid.Some? && email.Some? && r.notice == Some(Removed(email.value)) ==>
              && r.table.nextId == t.nextId
              && (forall row :: row in r.table.rows <==> row in t.rows && !Matches(row, ruid.value, email.value))
              && !HasMatch(r.table.rows, ruid.value, email.value)
    ensures Valid(t) ==> Valid(r.table)
  {
    if ruid.None? || email.None? then Reply(t, None)
    else if Found(t.rows, ruid.value, email.value) then
      var keep := KeepUnmatched(ruid.value, email.value);
      FilterValid(keep, t);
      Reply(Table(Filter(keep, t.rows), t.nextId), Some(Removed(email.value)))
    else Reply(t, Some(NotFound))
  }

  /** Confirming the same pair twice is confirming it once, reply included. */
  lemma ConfirmIdempotent(t: Table, ruid: string, email: string)
    requires Valid(t)
    ensures Confirm(Confirm(t, Some(ruid), Some(email)).table, Some(ruid), Some(email))
            == Confirm(t, Some(ruid), Some(email))
  {
    var first := Confirm(t, Some(ruid), Some(email));
    if first.notice == Some(ThankYou) {
      MarkConfirmedMatches(t.rows, ruid, email);
      MarkConfirmedIdempotent(t.rows, ruid, email);
    }
  }

  /** A removal cannot be repeated: the identical second request finds nothing and changes nothing. */
  lemma UnsubscribeTwice(t: Table, ruid: string, email: string)
    requires Valid(t)
    ensures var first := Unsubscribe(t, Some(ruid), Some(email));
            Unsubscribe(first.table, Some(ruid), Some(email)) == Reply(first.table, Some(NotFound))
  {
    var first := Unsubscribe(t, Some(ruid), Some(email));
  }
}

=== FILE: sweeper.dfy ===
/**
 The twice-daily job `delete_unconfirmed`: every pending row older than
 twelve hours is deleted, by id, one at a time. The clock reading `now` is
 an argument and is the same for the whole pass.
 */
module Sweeper {
  import opened Seqs
  import opened Store

  /** Twelve hours in seconds. */
  const ExpiryAge: int := 43200

  /** A pending row strictly older than the expiry age at time `now`. */
  predicate Expired(row: Row, now: int) {
    IsPending(row) && now - row.timestamp > ExpiryAge
  }

  /**
   A pending row expires one second after it turns twelve hours old, and
   stays expired from then on; a confirmed row never expires.
   */
  lemma ExpiryBoundary(row: Row, now: int, later: int)
    ensures !Expired(row, row.timestamp + ExpiryAge)
    ensures Expired(row, row.timestamp + ExpiryAge + 1) <==> IsPending(row)
    ensures Expired(row, now) && now <= later ==> Expired(row, later)
    ensures IsConfirmed(row) ==> !Expired(row, now)
  {
  }

  function ExpiredAt(now: int): Row -> bool {
    (row: Row) => Expired(row, now)
  }

  function SurvivesAt(now: int): Row -> bool {
    (row: Row) => !Expired(row, now)
  }

  /**
   The effect of one sweep: confirmed rows and pending rows at most twelve
   hours old stay, in their order; exactly the expired pending rows go.
   */
  function Sweep(t: Table, now: int): (r: Table)
    ensures r.nextId == t.nextId
    ensures forall row :: row in t.rows && IsConfirmed(row) ==> row in r.rows
    ensures forall row :: row in t.rows && now - row.timestamp <= ExpiryAge ==> row in r.rows
    ensures forall row :: row in t.rows && IsPending(row) && now - row.timestamp > ExpiryAge ==> row !in r.rows
    ensures forall row :: row in r.rows ==> row in t.rows
    ensures |r.rows| + |Filter(ExpiredAt(now), t.rows)| == |t.rows|
    ensures Valid(t) ==> Valid(r)
  {
    FilterSplit(SurvivesAt(now), ExpiredAt(now), t.rows);
    FilterValid(SurvivesAt(now), t);
    Table(Filter(SurvivesAt(now), t.rows), t.nextId)
  }

  /** Sweeping twice at the same time is sweeping once. */
  lemma SweepIdempotent(t: Table, now: int)
    ensures Sweep(Sweep(t, now), now) == Sweep(t, now)
  {
    FilterIdempotent(SurvivesAt(now), t.rows);
  }

  /** The ids the loop has deleted after visiting `visited`: those of its rows past the expiry age. */
  function DoomedIds(visited: seq<Row>, now: int): set<nat> {
    set row | row in visited && now - row.timestamp > ExpiryAge :: row.id
  }

  /** Because ids are unique, deleting by the ids of old pending rows deletes exactly the expired rows. */
  lemma DoomedIdsAreExpired(t: Table, now: int)
    requires Valid(t)
    ensures forall x :: x in t.rows ==> (x.id in DoomedIds(PendingRows(t.rows), now) <==> Expired(x, now))
  {
    var pending := PendingRows(t.rows);
    forall x | x in t.rows
      ensures x.id in DoomedIds(pending, now) <==> Expired(x, now)
    {
      if x.id in DoomedIds(pending, now) {
        var y :| y in pending && now - y.timestamp > ExpiryAge && y.id == x.id;
        SameIdSameRow(t, x, y);
      }
    }
  }

  /** Deleting the ids of all old pending rows is the sweep. */
  lemma SweepByIds(t: Table, now: int)
    requires Valid(t)
    ensures Filter(KeepIds(DoomedIds(PendingRows(t.rows), now)), t.rows) == Sweep(t, now).rows
  {
    DoomedIdsAreExpired(t, now);
    FilterExt(KeepIds(DoomedIds(PendingRows(t.rows), now)), SurvivesAt(now), t.rows);
  }

  /** Visiting one more row adds its id when it is past the expiry age. */
  lemma DoomedIdsStep(visited: seq<Row>, row: Row, now: int)
    ensures DoomedIds(visited + [row], now)
            == DoomedIds(visited, now) + (if now - row.timestamp > ExpiryAge then {row.id} else {})
  {
  }

  /** Deleting one more id after a set of ids is deleting the union. */
  lemma DeleteOneMore(rows: seq<Row>, ids: set<nat>, id: nat)
    ensures Filter(KeepIds({id}), Filter(KeepIds(ids), rows)) == Filter(KeepIds(ids + {id}), rows)
  {
    FilterCompose(KeepIds({id}), KeepIds(ids), KeepIds(ids + {id}), rows);
  }

  /**
   The loop of `delete_unconfirmed`: select the pending rows, then for each
   one past the expiry age delete the rows with its id. Its result is `Sweep`.
   */
  method DeleteUnconfirmed(t: Table, now: int) returns (r: Table)
    requires Valid(t)
    ensures r == Sweep(t, now)
  {
    var pending := PendingRows(t.rows);
    var rows := t.rows;
    FilterAll(KeepIds({}), t.rows);
    assert DoomedIds(pending[..0], now) == {};
    var i := 0;
    while i < |pending|
      invariant 0 <= i <= |pending|
      invariant rows == Filter(KeepIds(DoomedIds(pending[..i], now)), t.rows)
    {
      var row := pending[i];
      assert pending[..i + 1] == pending[..i] + [row];
      DoomedIdsStep(pending[..i], row, now);
      ghost var before := DoomedIds(pending[..i], now);
      if now - row.timestamp > ExpiryAge {
        DeleteOneMore(t.rows, before, row.id);
        rows := Filter(KeepIds({row.id}), rows);
        assert DoomedIds(pending[..i + 1], now) == before + {row.id};
      } else {
        assert DoomedIds(pending[..i + 1], now) == before;
      }
      assert rows == Filter(KeepIds(DoomedIds(pending[..i + 1], now)), t.rows);
      i := i + 1;
    }
    assert pending[..|pending|] == pending;
    SweepByIds(t, now);
    r := Table(rows, t.nextId);
  }
}

=== FILE: text.dfy ===
/** PHP's `trim` with its default character list, applied to the sign-up address. */
module Text {

  /** The characters `trim` strips by default: space, tab, line feed, carriage return, NUL and vertical tab. */
  predicate IsBlank(c: char) {
    c == ' ' || c == '\t' || c == '\n' || c == '\r' || c == '\0' || c as int == 11
  }

  /** `s` without its leading blanks: a suffix of `s` that is empty or starts with a non-blank. */
  function TrimStart(s: string): (r: string)
    ensures |r| <= |s| && r == s[|s| - |r|..]
    ensures forall k :: 0 <= k < |s| - |r| ==> IsBlank(s[k])
    ensures |r| == 0 || !IsBlank(r[0])
  {
    if |s| > 0 && IsBlank(s[0]) then TrimStart(s[1..]) else s
  }

  /** `s` without its trailing blanks: a prefix of `s` that is empty or ends with a non-blank. */
  function TrimEnd(s: string): (r: string)
    ensures |r| <= |s| && r == s[..|r|]
    ensures forall k :: |r| <= k < |s| ==> IsBlank(s[k])
    ensures |r| == 0 || !IsBlank(r[|r| - 1])
  {
    if |s| > 0 && IsBlank(s[|s| - 1]) then TrimEnd(s[..|s| - 1]) else s
  }

  /** The blanks a prefix leaves behind in a suffix are the blanks of the whole string past that slice. */
  lemma TrailingBlanks(s: string, t: string, r: string)
    requires |t| <= |s| && t == s[|s| - |t|..]
    requires |r| <= |t| && r == t[..|r|]
    requires forall k :: |r| <= k < |t| ==> IsBlank(t[k])
    ensures r == s[|s| - |t|..|s| - |t| + |r|]
    ensures forall k :: |s| - |t| + |r| <= k < |s| ==> IsBlank(s[k])
  {
    var off := |s| - |t|;
    forall k | off + |r| <= k < |s|
      ensures IsBlank(s[k])
    {
      assert s[k] == t[k - off];
    }
  }

  /** The slice `s[start..start + |r|]` left after dropping the blanks on both ends. */
  function Trim(s: string): (r: string)
    ensures |r| == 0 || (!IsBlank(r[0]) && !IsBlank(r[|r| - 1]))
    ensures TrimOffset(s) + |r| <= |s| && r == s[TrimOffset(s)..TrimOffset(s) + |r|]
    ensures forall k :: 0 <= k < TrimOffset(s) ==> IsBlank(s[k])
    ensures forall k :: TrimOffset(s) + |r| <= k < |s| ==> IsBlank(s[k])
  {
    var t := TrimStart(s);
    var r := TrimEnd(t);
    TrailingBlanks(s, t, r);
    assert |r| > 0 ==> r[0] == t[0];
    r
  }

  /** Where `Trim(s)` starts inside `s`: the number of leading blanks. */
  function TrimOffset(s: string): nat {
    |s| - |TrimStart(s)|
  }

  /** Trimming an already trimmed address leaves it as it is. */
  lemma TrimIdempotent(s: string)
    ensures Trim(Trim(s)) == Trim(s)
  {
    var r := Trim(s);
    if |r| > 0 {
      assert TrimStart(r) == r;
      assert TrimEnd(r) == r;
    }
  }
}

=== FILE: tokens.dfy ===
/**
 The 16-character confirmation token (`ruid`) built at sign-up. The PHP code
 draws each character with `rand(0, 61)`; here those draws are an input.
 */
module Tokens {

  const TokenLength: nat := 16

  const Digits: string := "0123456789"
  const Lower: string := "abcdefghijklmnopqrstuvwxyz"
  const Upper: string := "ABCDEFGHIJKLMNOPQRSTUVWXYZ"

  /** The 62 symbols a token is drawn from: digits, then lower case, then upper case. */
  const Alphabet: string := Digits + Lower + Upper

  /** Sixteen results of `rand(0, strlen(Alphabet) - 1)`. */
  predicate ValidDraws(draws: seq<nat>) {
    |draws| == TokenLength && forall k :: 0 <= k < |draws| ==> draws[k] < |Alphabet|
  }

  /** A string the token generator can produce. */
  predicate IsToken(s: string) {
    |s| == TokenLength && forall k :: 0 <= k < |s| ==> s[k] in Alphabet
  }

  /** The token for the given draws: character `k` is the alphabet symbol at draw `k`. */
  function Token(draws: seq<nat>): (ruid: string)
    requires ValidDraws(draws)
    ensures IsToken(ruid)
    ensures forall k :: 0 <= k < TokenLength ==> ruid[k] == Alphabet[draws[k]]
  {
    seq(TokenLength, k requires 0 <= k < TokenLength => Alphabet[draws[k]])
  }

  /** The generator's loop: append one drawn symbol per iteration, sixteen times. */
  method BuildToken(draws: seq<nat>) returns (ruid: string)
    requires ValidDraws(draws)
    ensures ruid == Token(draws)
  {
    ruid := "";
    var i := 0;
    while i < TokenLength
      invariant 0 <= i <= TokenLength
      invariant |ruid| == i
      invariant forall k :: 0 <= k < i ==> ruid[k] == Alphabet[draws[k]]
    {
      ruid := ruid + [Alphabet[draws[i]]];
      i := i + 1;
    }
  }

  /** The position of a symbol in `Alphabet`. */
  function SymbolIndex(c: char): int {
    if '0' <= c <= '9' then c as int - '0' as int
    else if 'a' <= c <= 'z' then 10 + (c as int - 'a' as int)
    else 36 + (c as int - 'A' as int)
  }

  /** `SymbolIndex` inverts indexing into `Alphabet`. */
  lemma SymbolIndexInverts(k: nat)
    requires k < |Alphabet|
    ensures SymbolIndex(Alphabet[k]) == k
  {
    if k < 10 {
      assert Alphabet[k] == Digits[k];
    } else if k < 36 {
      assert Alphabet[k] == Lower[k - 10];
    } else {
      assert Alphabet[k] == Upper[k - 36];
    }
  }

  /** A letter or a decimal digit. */
  predicate IsAlnum(c: char) {
    '0' <= c <= '9' || 'a' <= c <= 'z' || 'A' <= c <= 'Z'
  }

  /** Every symbol of the alphabet is a letter or a digit. */
  lemma AlphabetAlnum(k: nat)
    requires k < |Alphabet|
    ensures IsAlnum(Alphabet[k])
  {
    if k < 10 {
      assert Alphabet[k] == Digits[k];
    } else if k < 36 {
      assert Alphabet[k] == Lower[k - 10];
    } else {
      assert Alphabet[k] == Upper[k - 36];
    }
  }

  /** Every character of the alphabet is a letter or a digit. */
  lemma SymbolAlnum(c: char)
    requires c in Alphabet
    ensures IsAlnum(c)
  {
    var j :| 0 <= j < |Alphabet| && Alphabet[j] == c;
    AlphabetAlnum(j);
  }

  /** The draws a token was built from, read back off the token. */
  function Draws(ruid: string): seq<int> {
    seq(|ruid|, k requires 0 <= k < |ruid| => SymbolIndex(ruid[k]))
  }

  /** A token determines its draws: decoding the token gives the draws back. */
  lemma TokenRoundTrip(draws: seq<nat>)
    requires ValidDraws(draws)
    ensures Draws(Token(draws)) == draws
  {
    var t := Token(draws);
    forall k | 0 <= k < TokenLength
      ensures Draws(t)[k] == draws[k]
    {
      SymbolIndexInverts(draws[k]);
    }
  }

  /** Distinct draws give distinct tokens. */
  lemma TokenInjective(d1: seq<nat>, d2: seq<nat>)
    requires ValidDraws(d1) && ValidDraws(d2) && d1 != d2
    ensures Token(d1) != Token(d2)
  {
    TokenRoundTrip(d1);
    TokenRoundTrip(d2);
  }
}
